=== FILE: README.md ===
# System Lambda and System Stubs in Dafny

This project models the core of System Lambda (`com.github.stefanbirkner.systemlambda.SystemLambda`),
of the `LogPrintStream` behind System Rules' `SystemErrRule`/`SystemOutRule`, and of the
environment-variable and `System.in` stubs of system-stubs.

These libraries replace process-wide Java state while a piece of test code runs, and put it back
afterwards. The state covers `System.err`, `System.out`, `System.in`, the security manager, the
system properties and the environment variables.

- **Process-wide state.** The class `Ambient.Ambient` holds all of it. The environment is held as
  the map behind `System.getenv()` plus the optional case-insensitive map that some platforms keep.
- **Test code.** The test code handed to a helper (a `Statement`) is a script of actions on that
  state:
  - write a byte to `System.err` or `System.out`;
  - install its own stream or security manager;
  - set or clear a property;
  - put or remove an environment variable;
  - call `System.exit`;
  - throw, or catch what an action throws.
- **Meaning of test code.** `Ambient.Run` gives the meaning of a script as a pure function.
  `Ambient.Ambient.Execute` carries the script out on the objects and is proved against `Run`.
- **The helpers.** Every helper (`tapSystemErr`, `muteSystemOut`, `catchSystemExit`,
  `withEnvironmentVariable(...).execute`, ...) is a method that swaps a slot, calls `Execute` and
  restores the slot. Its contract states:
  - the run it performs;
  - the slot values afterwards;
  - what its replacement object saw.
- **Module `Statements`.** It proves the facts that give each helper its meaning, as lemmas about
  `Run`:
  - a tap receives exactly the bytes written to its slot, in order;
  - a muted slot drops writes and changes nothing else;
  - a disallowing slot fails the statement at its first write;
  - an intercepting security manager remembers the first exit status.

The streams are modelled as classes over their own state:
- `ReplacementInputStream`, with its line-by-line buffered read over an `array`;
- the `DecoratingAltStream`/`ThrowAtEndStream` chain of system-stubs, and its recursive `contains`;
- `TapStream`;
- `MuteableLogStream`, whose log is specified by replaying the events that happened to it.

The environment override sets of both libraries share one definition, `EnvOverrides.Overridden`:
- a null value removes the variable;
- any other value sets it;
- restoring clears each map and refills it from a snapshot.

## Model

| member | source | states |
|---|---|---|
| Jvm.ToByte | src/main/java/com/github/stefanbirkner/systemlambda/SystemLambda.java:1118-1122 | a byte stored from an `int` keeps its low eight bits: it differs from the argument by a multiple of 256 |
| Jvm.ToChar | src/main/java/com/github/stefanbirkner/systemlambda/SystemLambda.java:920-922 | `(char) b` keeps the low sixteen bits of `b` |
| Jvm.Decode | src/main/java/com/github/stefanbirkner/systemlambda/SystemLambda.java:1124-1126 | decoding yields one character per byte, holding the byte's unsigned value |
| Text.ReplaceWithoutOccurrence | src/main/java/com/github/stefanbirkner/systemlambda/SystemLambda.java:573-578 | `replace` leaves text that contains no occurrence of the separator unchanged |
| Text.ReplaceBySelf | src/main/java/com/github/stefanbirkner/systemlambda/SystemLambda.java:573-578 | replacing the separator by itself is the identity, so normalising `\n`-separated text changes nothing |
| Text.ReplaceAfterLine | src/main/java/com/github/stefanbirkner/systemlambda/SystemLambda.java:573-578 | a line free of the separator's first character is copied, and the separator after it is replaced |
| Text.JoinTerminatedLength | src/main/java/com/github/stefanbirkner/systemlambda/SystemLambda.java:862-869 | the joined text is as long as the lines plus one separator per line |
| Text.JoinTerminatedAppend | src/main/java/com/github/stefanbirkner/systemlambda/SystemLambda.java:862-869 | adding a line appends that line and one separator, in order |
| Text.ReplaceJoined | src/main/java/com/github/stefanbirkner/systemlambda/SystemLambda.java:862-869 | for a non-empty separator whose first character occurs in no line, normalising separator-terminated lines gives the same lines terminated by `\n` |
| Sinks.TapStream.constructor | src/main/java/com/github/stefanbirkner/systemlambda/SystemLambda.java:1114-1115 | a new tap holds no bytes |
| Sinks.TapStream.Write | src/main/java/com/github/stefanbirkner/systemlambda/SystemLambda.java:1117-1122 | the tap's buffer grows by exactly the written byte |
| Sinks.TapStream.TextThatWasWritten | src/main/java/com/github/stefanbirkner/systemlambda/SystemLambda.java:1124-1126 | the text has one character per buffered byte |
| Sinks.DisallowMessage | src/main/java/com/github/stefanbirkner/systemlambda/SystemLambda.java:915-926 | the message is "Tried to write '", then the character `(char) b`, then "' although this is not allowed." |
| Sinks.DisallowMessageIdentifiesCharacter | src/main/java/com/github/stefanbirkner/systemlambda/SystemLambda.java:915-926 | two writes give the same message exactly when they write the same character |
| Exit.NoExitSecurityManager.constructor | src/main/java/com/github/stefanbirkner/systemlambda/SystemLambda.java:1403-1411 | a new manager remembers the original manager and holds no status |
| Exit.NoExitSecurityManager.CheckExit | src/main/java/com/github/stefanbirkner/systemlambda/SystemLambda.java:1413-1420 | the status is recorded only if none was recorded before, and `CheckExitCalled` is always thrown |
| Exit.NoExitSecurityManager.GetStatusOfFirstCheckExitCall | src/main/java/com/github/stefanbirkner/systemlambda/SystemLambda.java:1426-1432 | returns the recorded status exactly when there is one, else `IllegalStateException` |
| Exit.NoExitSecurityManager.OtherCheck | src/main/java/com/github/stefanbirkner/systemlambda/SystemLambda.java:1446-1452 | every other check is forwarded to the original manager if there is one, and does nothing otherwise |
| Exit.CheckSystemExit | src/main/java/com/github/stefanbirkner/systemlambda/SystemLambda.java:1385-1392 | returns the first recorded status exactly when one was recorded, else `AssertionError("System.exit has not been called.")` |
| AltStreams.NewThrowAtEndForIO | system-stubs-core/src/main/java/uk/org/webcompere/systemstubs/stream/alt/ThrowAtEndStream.java:10-13 | a null exception gives `NullPointerException`, otherwise a layer holding exactly the IOException over the decoratee |
| AltStreams.NewThrowAtEndForRuntime | system-stubs-core/src/main/java/uk/org/webcompere/systemstubs/stream/alt/ThrowAtEndStream.java:15-18 | a null exception gives `NullPointerException`, otherwise a layer holding exactly the RuntimeException |
| AltStreams.ReadResult | system-stubs-core/src/main/java/uk/org/webcompere/systemstubs/stream/alt/ThrowAtEndStream.java:21-27 | a `ThrowAtEndStream` layer never returns -1 |
| AltStreams.Read | system-stubs-core/src/main/java/uk/org/webcompere/systemstubs/stream/alt/DecoratingAltStream.java:17-19 | reading the chain yields `ReadResult` of the bottom stream's next value, and consumes one unit unless at the end |
| AltStreams.ValuesPassThrough | system-stubs-core/src/main/java/uk/org/webcompere/systemstubs/stream/alt/ThrowAtEndStream.java:21-27 | every value other than -1 passes unchanged through every layer |
| AltStreams.ReadAtEnd | system-stubs-core/src/main/java/uk/org/webcompere/systemstubs/stream/alt/ThrowAtEndStream.java:29-34 | at the end, a chain without `ThrowAtEndStream` gives -1; otherwise the innermost one throws (IOException first), again on every read |
| AltStreams.ContainsSearchesWholeChain | system-stubs-core/src/main/java/uk/org/webcompere/systemstubs/stream/alt/DecoratingAltStream.java:22-25 | `contains(t)` holds exactly when the base check holds on some layer or some layer below the top is `t` or a subclass of it |
| ReplacementInput.ReplacementInputStream.constructor | src/main/java/com/github/stefanbirkner/systemlambda/SystemLambda.java:1020-1033 | the reader starts at the beginning of the text, with the configured exceptions |
| ReplacementInput.ReplacementInputStream.AtEnd | src/main/java/com/github/stefanbirkner/systemlambda/SystemLambda.java:1044-1050 | at the end: the IOException if set, else the RuntimeException if set, else -1 |
| ReplacementInput.ReplacementInputStream.Read | src/main/java/com/github/stefanbirkner/systemlambda/SystemLambda.java:1036-1042 | the next UTF-16 unit, unmasked, advancing by one; at the end `AtEnd()` on every call, without moving |
| ReplacementInput.ReplacementInputStream.ReadInto | src/main/java/com/github/stefanbirkner/systemlambda/SystemLambda.java:1052-1066 | null buffer gives NPE; bad offset or length gives `IndexOutOfBoundsException`; length 0 gives 0; otherwise one line is read as `LineRead` states |
| ReplacementInput.ReplacementInputStream.ReadNextLine | src/main/java/com/github/stefanbirkner/systemlambda/SystemLambda.java:1068-1087 | fills `buffer[offset..offset+k)` with the low bytes of the next `k` characters, 1 <= k <= len; it stops after a complete separator counted from index 0, at a byte that reads as -1, or at an exception (which propagates); other cells are unchanged |
| ReplacementInput.ReplacementInputStream.IsCompleteLineWritten | src/main/java/com/github/stefanbirkner/systemlambda/SystemLambda.java:1089-1099 | true exactly when the cells `0..index` end with the separator |
| ReplacementInput.ReplacementInputStream.Contains | src/main/java/com/github/stefanbirkner/systemlambda/SystemLambda.java:1101-1110 | true exactly when the pattern occurs at `indexStart` |
| Ambient.Properties.CopyOf | src/main/java/com/github/stefanbirkner/systemlambda/SystemLambda.java:871-877 | the copy is a new object holding the same entries |
| Ambient.RunTouchesOnlyInstalled | src/main/java/com/github/stefanbirkner/systemlambda/SystemLambda.java:879-890 | test code writes only to taps installed when it starts and reports exits only to the manager installed then |
| Ambient.Ambient.Execute | src/main/java/com/github/stefanbirkner/systemlambda/SystemLambda.java:886 | the statement changes the slots, properties, taps and managers exactly as `Run` prescribes |
| Statements.RunKeeps | src/main/java/com/github/stefanbirkner/systemlambda/SystemLambda.java:879-903 | test code that does not replace a slot ends with the slot as it began |
| Statements.RunAppend | src/main/java/com/github/stefanbirkner/systemlambda/SystemLambda.java:886 | running two scripts one after the other: the second runs only after a normal completion, and the traces concatenate |
| Statements.RunCaptures | src/main/java/com/github/stefanbirkner/systemlambda/SystemLambda.java:1114-1127 | a tap receives exactly the bytes written to its slots by the actions that ran, in order |
| Statements.MutedWritesAreDropped | src/main/java/com/github/stefanbirkner/systemlambda/SystemLambda.java:928-934 | under a muted slot, a run has the completion, final state and effects of the same script without its writes to that slot |
| Statements.DisallowedWriteFails | src/main/java/com/github/stefanbirkner/systemlambda/SystemLambda.java:915-926 | the first write to a disallowing slot ends the statement with the `AssertionError` naming that character |
| Statements.DisallowedRunWritesNothing | src/main/java/com/github/stefanbirkner/systemlambda/SystemLambda.java:915-926 | a statement that completes normally under a disallowing slot wrote nothing to it |
| Statements.RunRecordsFirstExit | src/main/java/com/github/stefanbirkner/systemlambda/SystemLambda.java:1413-1420 | the manager ends holding the status of the first `System.exit` among the actions that ran |
| Statements.ExitEndsStatement | src/main/java/com/github/stefanbirkner/systemlambda/SystemLambda.java:1413-1420 | a call to `System.exit` under the intercepting manager ends the statement with `CheckExitCalled` |
| SystemLambda.ExecuteWithSystemErrReplacement | src/main/java/com/github/stefanbirkner/systemlambda/SystemLambda.java:879-890 | the statement runs with the replacement as `System.err`; afterwards `System.err` is the original stream, whatever the completion; everything else is as the run left it |
| SystemLambda.ExecuteWithSystemOutReplacement | src/main/java/com/github/stefanbirkner/systemlambda/SystemLambda.java:892-903 | the same for `System.out` |
| SystemLambda.TapSystemErr | src/main/java/com/github/stefanbirkner/systemlambda/SystemLambda.java:539-548 | `System.err` is restored; a normal completion returns the decoded bytes written to `System.err`, in order; an exception propagates; the system properties, the taps in the slots it does not replace and the intercepting managers change exactly as the run's trace says |
| SystemLambda.TapSystemOut | src/main/java/com/github/stefanbirkner/systemlambda/SystemLambda.java:676-685 | the same for `System.out`; the system properties, the taps in the slots it does not replace and the intercepting managers change exactly as the run's trace says |
| SystemLambda.TapSystemErrAndOut | src/main/java/com/github/stefanbirkner/systemlambda/SystemLambda.java:606-618 | both streams restored; one buffer receives the writes to both, interleaved in the order they happened; the system properties, the taps in the slots it does not replace and the intercepting managers change exactly as the run's trace says |
| SystemLambda.TapSystemErrNormalized | src/main/java/com/github/stefanbirkner/systemlambda/SystemLambda.java:573-578 | the tapped text with every line separator replaced by `\n`; the system properties, the taps in the slots it does not replace and the intercepting managers change exactly as the run's trace says |
| SystemLambda.TapSystemOutNormalized | src/main/java/com/github/stefanbirkner/systemlambda/SystemLambda.java:710-715 | the same for `System.out`; the system properties, the taps in the slots it does not replace and the intercepting managers change exactly as the run's trace says |
| SystemLambda.TapSystemErrAndOutNormalized | src/main/java/com/github/stefanbirkner/systemlambda/SystemLambda.java:647-652 | the same for the combined tap; the system properties, the taps in the slots it does not replace and the intercepting managers change exactly as the run's trace says |
| SystemLambda.MuteSystemErr | src/main/java/com/github/stefanbirkner/systemlambda/SystemLambda.java:430-437 | `System.err` is restored; the run is the run of the script without its writes to `System.err`; the system properties, the taps in the slots it does not replace and the intercepting managers change exactly as the run's trace says |
| SystemLambda.MuteSystemOut | src/main/java/com/github/stefanbirkner/systemlambda/SystemLambda.java:458-465 | the same for `System.out`; the system properties, the taps in the slots it does not replace and the intercepting managers change exactly as the run's trace says |
| SystemLambda.AssertNothingWrittenToSystemErr | src/main/java/com/github/stefanbirkner/systemlambda/SystemLambda.java:336-343 | `System.err` is restored; a normal completion means nothing was written to `System.err`; the system properties, the taps in the slots it does not replace and the intercepting managers change exactly as the run's trace says |
| SystemLambda.AssertNothingWrittenToSystemOut | src/main/java/com/github/stefanbirkner/systemlambda/SystemLambda.java:368-375 | the same for `System.out`; the system properties, the taps in the slots it does not replace and the intercepting managers change exactly as the run's trace says |
| SystemLambda.RestoreSystemProperties | src/main/java/com/github/stefanbirkner/systemlambda/SystemLambda.java:505-515 | the statement works on a fresh copy; afterwards the original object is reinstated with its entries untouched; the taps and the intercepting managers change exactly as the run's trace says |
| SystemLambda.WithSecurityManager | src/main/java/com/github/stefanbirkner/systemlambda/SystemLambda.java:787-798 | the statement runs under the given manager; the original manager is reinstated afterwards; the system properties and the taps change exactly as the run's trace says |
| SystemLambda.Result | src/main/java/com/github/stefanbirkner/systemlambda/SystemLambda.java:539-548 | a helper returns its value exactly on normal completion, and otherwise passes the exception or halt through |
| SystemLambda.CatchResult | src/main/java/com/github/stefanbirkner/systemlambda/SystemLambda.java:398-408 | `CheckExitCalled` is caught by type and any other exception propagates; the result is the recorded status, or the `AssertionError` when there is none |
| SystemLambda.CatchSystemExit | src/main/java/com/github/stefanbirkner/systemlambda/SystemLambda.java:398-408 | runs under a fresh `NoExitSecurityManager` wrapping the original, which is restored; returns the status of the first `System.exit` among the actions that ran; the system properties and the taps change exactly as the run's trace says |
| SystemLambda.CatchSystemExitReturnsStatus | src/main/java/com/github/stefanbirkner/systemlambda/SystemLambda.java:398-408 | test code that reaches `System.exit(s)` with no earlier exit makes `catchSystemExit` return `s` |
| SystemLambda.CatchSystemExitWithoutExit | src/main/java/com/github/stefanbirkner/systemlambda/SystemLambda.java:1385-1392 | test code that completes without an exit makes it fail with "System.exit has not been called." |
| SystemLambda.StdinText | src/main/java/com/github/stefanbirkner/systemlambda/SystemLambda.java:862-869 | the text's length is the total line length plus one separator per line |
| SystemLambda.WithTextFromSystemIn | src/main/java/com/github/stefanbirkner/systemlambda/SystemLambda.java:862-869 | a new stub holding every line followed by the separator, with no exception configured |
| SystemLambda.StdinTextNormalized | src/main/java/com/github/stefanbirkner/systemlambda/SystemLambda.java:862-869 | when the separator is non-empty and its first character occurs in no line, normalising the stub text gives the lines terminated by `\n` |
| SystemLambda.SystemInStub.constructor | src/main/java/com/github/stefanbirkner/systemlambda/SystemLambda.java:949-953 | the stub holds the text and no exception |
| SystemLambda.SystemInStub.AndExceptionThrownOnInputEndIO | src/main/java/com/github/stefanbirkner/systemlambda/SystemLambda.java:963-973 | refused with `IllegalStateException` once a RuntimeException is set; otherwise sets (or overwrites) the IOException and returns the stub |
| SystemLambda.SystemInStub.AndExceptionThrownOnInputEndRuntime | src/main/java/com/github/stefanbirkner/systemlambda/SystemLambda.java:982-992 | the mirror image |
| SystemLambda.SystemInStub.Execute | src/main/java/com/github/stefanbirkner/systemlambda/SystemLambda.java:1004-1017 | the statement runs with a fresh `ReplacementInputStream` over the text as `System.in`, and the original `System.in` is restored; the system properties, the taps in the slots it does not replace and the intercepting managers change exactly as the run's trace says |
| SystemLambda.WithEnvironmentVariable | src/main/java/com/github/stefanbirkner/systemlambda/SystemLambda.java:754-761 | a new set holding just that variable |
| SystemLambda.WithEnvironmentVariables.constructor | src/main/java/com/github/stefanbirkner/systemlambda/SystemLambda.java:1138-1142 | the set holds the given variables |
| SystemLambda.WithEnvironmentVariables.And | src/main/java/com/github/stefanbirkner/systemlambda/SystemLambda.java:1157-1165 | a name given before is refused with the formatted message; otherwise a new set with one more entry, the receiver unchanged |
| SystemLambda.WithEnvironmentVariables.Execute | src/main/java/com/github/stefanbirkner/systemlambda/SystemLambda.java:1273-1283 | the statement runs on the overridden maps; afterwards both maps hold the snapshot of `System.getenv()` taken before; the system properties, the taps in the slots it does not replace and the intercepting managers change exactly as the run's trace says |
| EnvOverrides.Overridden | src/main/java/com/github/stefanbirkner/systemlambda/SystemLambda.java:1294-1301 | non-null overrides hold their value, null ones are absent, every other name is untouched |
| EnvOverrides.SetOrRemoveInMap | src/main/java/com/github/stefanbirkner/systemlambda/SystemLambda.java:1303-1312 | null removes the name, any other value puts it; other names are untouched |
| EnvOverrides.OverrideVariables | src/main/java/com/github/stefanbirkner/systemlambda/SystemLambda.java:1294-1301 | applying the overrides one by one gives `Overridden` |
| EnvOverrides.OverrideIdempotent | system-stubs-core/src/main/java/uk/org/webcompere/systemstubs/environment/EnvironmentVariables.java:86-93 | applying the same overrides twice is applying them once |
| EnvOverrides.SetEnvironmentVariables | src/main/java/com/github/stefanbirkner/systemlambda/SystemLambda.java:1285-1292 | both maps are overridden in lockstep; an absent case-insensitive map stays absent |
| EnvOverrides.RestoreVariables | src/main/java/com/github/stefanbirkner/systemlambda/SystemLambda.java:1327-1335 | an absent map is skipped; a present one becomes the snapshot; a null snapshot leaves it empty and throws NPE |
| EnvOverrides.RestoreOriginalVariables | src/main/java/com/github/stefanbirkner/systemlambda/SystemLambda.java:1314-1325 | both maps become the snapshot, an absent one stays absent; an NPE from the first stops the second |
| EnvOverrides.Format | src/main/java/com/github/stefanbirkner/systemlambda/SystemLambda.java:1181-1188 | null is formatted as `null`, any other text in single quotes |
| EnvOverrides.FormatInjective | src/main/java/com/github/stefanbirkner/systemlambda/SystemLambda.java:1181-1188 | different values are formatted differently |
| EnvOverrides.ValidateNotSet | src/main/java/com/github/stefanbirkner/systemlambda/SystemLambda.java:1167-1179 | refuses a name exactly when it is set already, with the message quoting both values |
| StubsEnvironment.LastPairWins | system-stubs-core/src/main/java/uk/org/webcompere/systemstubs/environment/EnvironmentVariables.java:43-52 | a name takes the value of its last pair |
| StubsEnvironment.NoPairKeeps | system-stubs-core/src/main/java/uk/org/webcompere/systemstubs/environment/EnvironmentVariables.java:43-52 | a name that no pair mentions keeps its entry, or its absence |
| StubsEnvironment.SetWhileActiveAsFromStart | system-stubs-core/src/main/java/uk/org/webcompere/systemstubs/environment/EnvironmentVariables.java:86-93 | re-applying all overrides after `set` leaves the environment as if the new set had been applied from the start |
| StubsEnvironment.EnvironmentVariables.Empty | system-stubs-core/src/main/java/uk/org/webcompere/systemstubs/environment/EnvironmentVariables.java:32-34 | no overrides, no snapshot, inactive |
| StubsEnvironment.EnvironmentVariables.FromMap | system-stubs-core/src/main/java/uk/org/webcompere/systemstubs/environment/EnvironmentVariables.java:57-59 | the object holds its own copy of the map |
| StubsEnvironment.EnvironmentVariables.FromPairs | system-stubs-core/src/main/java/uk/org/webcompere/systemstubs/environment/EnvironmentVariables.java:43-52 | an odd count is refused with `IllegalArgumentException`; otherwise the pairs are put in order after the first |
| StubsEnvironment.EnvironmentVariables.Put | system-stubs-core/src/main/java/uk/org/webcompere/systemstubs/environment/EnvironmentVariables.java:87 | the entry is put or overwritten |
| StubsEnvironment.EnvironmentVariables.And | system-stubs-core/src/main/java/uk/org/webcompere/systemstubs/environment/EnvironmentVariables.java:74-77 | a name present already is refused with the formatted message; otherwise a new inactive object with one more entry, the receiver unchanged |
| StubsEnvironment.EnvironmentVariables.Set | system-stubs-core/src/main/java/uk/org/webcompere/systemstubs/environment/EnvironmentVariables.java:86-93 | puts the entry and returns `this`; the environment changes only while active, and then to all overrides applied |
| StubsEnvironment.EnvironmentVariables.DoSetup | system-stubs-core/src/main/java/uk/org/webcompere/systemstubs/environment/EnvironmentVariables.java:158-162 | the snapshot is taken before the overrides are applied to both maps |
| StubsEnvironment.EnvironmentVariables.DoTeardown | system-stubs-core/src/main/java/uk/org/webcompere/systemstubs/environment/EnvironmentVariables.java:164-167 | both maps become the snapshot; without a snapshot the first map is left empty and an NPE is thrown |
| StubsEnvironment.SetupChangeTeardown | system-stubs-core/src/main/java/uk/org/webcompere/systemstubs/environment/EnvironmentVariables.java:158-167 | whatever is done to the maps between setup and teardown, teardown gives back the original environment |
| StubsSystemIn.ContainsFindsThrowAtEnd | system-stubs-core/src/main/java/uk/org/webcompere/systemstubs/stream/SystemIn.java:44-50 | assuming the base-class check `superContains` recognises its own class, once the chain has a `ThrowAtEndStream` layer, `contains(ThrowAtEndStream.class)` finds it, so a second call fails |
| StubsSystemIn.SystemIn.FromInputStream | system-stubs-core/src/main/java/uk/org/webcompere/systemstubs/stream/SystemIn.java:28-30 | a plain stream is wrapped in a single `DecoratingAltStream` |
| StubsSystemIn.SystemIn.FromAlt | system-stubs-core/src/main/java/uk/org/webcompere/systemstubs/stream/SystemIn.java:32-34 | the given chain is held |
| StubsSystemIn.SystemIn.SetInputStream | system-stubs-core/src/main/java/uk/org/webcompere/systemstubs/stream/SystemIn.java:88-93 | the field always changes; `System.in` changes only while active |
| StubsSystemIn.SystemIn.AndExceptionThrownOnInputEndIO | system-stubs-core/src/main/java/uk/org/webcompere/systemstubs/stream/SystemIn.java:44-55 | refused once the chain contains a `ThrowAtEndStream`; a null exception gives NPE; otherwise the chain is wrapped and `this` returned; at most one such layer ever, assuming `superContains` recognises its own class |
| StubsSystemIn.SystemIn.AndExceptionThrownOnInputEndRuntime | system-stubs-core/src/main/java/uk/org/webcompere/systemstubs/stream/SystemIn.java:64-75 | the same for a RuntimeException, with the same assumption about `superContains` for the at-most-one-layer result |
| StubsSystemIn.SystemIn.DoSetup | system-stubs-core/src/main/java/uk/org/webcompere/systemstubs/stream/SystemIn.java:77-81 | the current `System.in` is recorded and the chain installed |
| StubsSystemIn.SystemIn.DoTeardown | system-stubs-core/src/main/java/uk/org/webcompere/systemstubs/stream/SystemIn.java:83-86 | exactly the recorded stream is reinstated |
| LogPrint.ReplayLog | src/main/java/org/junit/contrib/java/lang/system/internal/LogPrintStream.java:36-42 | the log holds exactly the bytes written after the first `enableLog` and after the last `clearLog`, in order; it is muted until the first `enableLog` |
| LogPrint.MuteableLogStream.constructor | src/main/java/org/junit/contrib/java/lang/system/internal/LogPrintStream.java:64-71 | the log starts empty and muted |
| LogPrint.MuteableLogStream.Write | src/main/java/org/junit/contrib/java/lang/system/internal/LogPrintStream.java:73-78 | every byte goes to the original stream; it goes to the log exactly when not muted |
| LogPrint.MuteableLogStream.Flush | src/main/java/org/junit/contrib/java/lang/system/internal/LogPrintStream.java:80-84 | forwarded; the log is not touched |
| LogPrint.MuteableLogStream.Close | src/main/java/org/junit/contrib/java/lang/system/internal/LogPrintStream.java:86-90 | forwarded; the log is not touched |
| LogPrint.LogPrintStream.constructor | src/main/java/org/junit/contrib/java/lang/system/internal/LogPrintStream.java:16-19 | a muted, empty log in front of the handler's stream |
| LogPrint.LogPrintStream.ClearLog | src/main/java/org/junit/contrib/java/lang/system/internal/LogPrintStream.java:36-38 | empties the log and keeps the mute flag |
| LogPrint.LogPrintStream.EnableLog | src/main/java/org/junit/contrib/java/lang/system/internal/LogPrintStream.java:40-42 | later writes are logged; earlier ones stay out |
| LogPrint.LogPrintStream.GetLog | src/main/java/org/junit/contrib/java/lang/system/internal/LogPrintStream.java:44-57 | the decoded bytes written since the log was enabled and last cleared |
| LogPrint.LogPrintStream.GetLogWithNormalizedLineSeparator | src/main/java/org/junit/contrib/java/lang/system/internal/LogPrintStream.java:59-62 | those bytes decoded, with every separator replaced by `\n`; when the separator is `\n`, the log itself |

## Left out

- Charsets: decoding is single-byte (`Jvm.Decode`). The `PrintStream` wrapping (`wrap`, with auto-flush and the default encoding) passes bytes through unchanged. `file.encoding` is not read. `getBytes(defaultCharset())` of the separator is the separator given as bytes.
- The line separator is a parameter. The `line.separator` property is not read.
- Process termination: `System.exit` under a manager that is not the library's completes as `Halted(status)`, which every helper passes through. The process is not stopped.
- Test code can install only streams and security managers of its own. A manager that is not the library's permits the exit.
- Test code does not read `System.in`: the stream installed there is modelled and proved on its own.
- Concurrency: an exit called from another thread is modelled only as an exception the test code discards (`Swallow`). Racing `checkExit` calls are not modelled.
- Reflection on the JDK's environment internals (`getEditableMapOfVariables`, `getTheCaseInsensitiveEnvironment`, `getFieldValue`): the two maps are fields of `Ambient.Ambient`, the second optional. The reflective failure paths are left out.
- The case-insensitive environment map is modelled as an ordinary map.
- Null environment variable names are outside the model. `StubsEnvironment.EnvironmentVariables.FromPairs` therefore requires every name to be non-null.
- `AltInputStream.contains` of the base class, and `isActive()` of `SingularTestResource`, are not shown. The first is the parameter `superContains`, the second the field `active`. `StubsSystemIn.ContainsFindsThrowAtEnd`, `StubsSystemIn.SystemIn.AndExceptionThrownOnInputEndIO` and `StubsSystemIn.SystemIn.AndExceptionThrownOnInputEndRuntime` prove that a second call is refused only under the assumption that `superContains` recognises a `ThrowAtEndStream` layer's own class; without it, the top layer is seen only by that base-class check.
- The rest of the `SingularTestResource` lifecycle is not modelled. This includes the `execute` methods of system-stubs' `EnvironmentVariables` and its `getVariables`.
- The forwarding overrides of `NoExitSecurityManager` (`checkPermission`, `checkRead`, ..., and `getInCheck`, which answers false without an original manager) share one forwarding rule, `Exit.NoExitSecurityManager.OtherCheck`. Three of them do not do nothing without an original manager: `getSecurityContext`, `checkTopLevelWindow` and `getThreadGroup` then fall back to the JDK `SecurityManager` default (`super`). That default is not part of this model.
- `WithEnvironmentVariables.execute(Callable)` behaves as `execute(Statement)`, whose model also returns the completion. It is not modelled separately.
- `SystemErrRule`, `SystemOutRule`, `LogPrintStream.createStatement` and `PrintStreamHandler` are left out, as JUnit wiring.
- `tapSystemErrToCollection` and `SystemLambdaExecutionException` do not appear in the library source and are left out.
- Failures of the original stream in `MuteableLogStream` (an `IOException` from `write`, `flush` or `close`) are not modelled.
- Bytes written to streams outside the library are recorded only in the ghost trace of a run.
- Every read after the end of input throws again, as the code does, although the documentation of `andExceptionThrownOnInputEnd` says the exception is thrown after the text has been read.
- The `ioException` and `runtimeException` fields of system-stubs' `SystemIn` are never used and are not modelled.
- `SystemLambda.TapSystemErr`, `SystemLambda.TapSystemOut` and `SystemLambda.TapSystemErrAndOut`: the closed form over the script (`ErrBytes`, `OutBytes`, `AllBytes`) is stated only for test code that does not replace the tapped stream. The general contract holds for all test code.
- `SystemLambda.MuteSystemErr`, `SystemLambda.MuteSystemOut`, `SystemLambda.AssertNothingWrittenToSystemErr` and `SystemLambda.AssertNothingWrittenToSystemOut` carry the same restriction.
- `SystemLambda.CatchSystemExit`: the first-exit form is stated for test code that does not install its own security manager.
- `StubsEnvironment.SetupChangeTeardown`: the case-insensitive map is shown restored only when it held the same entries as the main map before setup. Teardown refills both maps from the snapshot of the main map.

=== FILE: alt_streams.dfy ===
/** The input-stream decorator chain of system-stubs: `DecoratingAltStream`
    delegates to the stream it wraps, `ThrowAtEndStream` turns the end of
    input into a configured exception, and `contains` searches the chain
    for a layer of a given class. */
module AltStreams {
  import opened Jvm

  type ByteValue = x: int | 0 <= x < 256

  /** An input stream outside this model at the bottom of a chain: it
      delivers its bytes in order and then reports -1 on every read. */
  class SourceStream {
    const data: seq<ByteValue>
    var position: nat

    constructor (data: seq<ByteValue>)
      ensures this.data == data && position == 0
    {
      this.data := data;
      position := 0;
    }

    /** What the next `read()` returns. */
    function Next(): int
      reads this
    {
      if position < |data| then data[position] else -1
    }

    method Read() returns (r: int)
      modifies this
      ensures r == old(Next())
      ensures r != -1 ==> position == old(position) + 1
      ensures r == -1 ==> position == old(position)
    {
      if position < |data| {
        r := data[position];
        position := position + 1;
      } else {
        r := -1;
      }
    }
  }

  /** Runtime classes that matter to `contains`. `OtherStream` is a plain
      `InputStream` subclass outside this model. */
  datatype JClass =
    | InputStreamClass
    | AltInputStreamClass
    | DecoratingAltStreamClass
    | ThrowAtEndStreamClass
    | OtherStream(name: nat)

  /** `t.isAssignableFrom(c)`: `c` is `t` or a subclass of `t`. */
  predicate IsAssignableFrom(t: JClass, c: JClass)
  {
    match t
    case InputStreamClass => true
    case AltInputStreamClass => c.AltInputStreamClass? || c.DecoratingAltStreamClass? || c.ThrowAtEndStreamClass?
    case DecoratingAltStreamClass => c.DecoratingAltStreamClass? || c.ThrowAtEndStreamClass?
    case ThrowAtEndStreamClass => c.ThrowAtEndStreamClass?
    case OtherStream(_) => c == t
  }

  /** A chain of streams. The exceptions of a `ThrowAtEnd` layer are the
      identities of the configured exception objects (`None` is null). */
  datatype Chain =
    | Source(name: nat, stream: SourceStream)
    | Decorating(decoratee: Chain)
    | ThrowAtEnd(ioException: Option<nat>, runtimeException: Option<nat>, decoratee: Chain)
  {
    /** The layer is an `AltInputStream`. */
    predicate IsAlt() { !Source? }

    function ClassOf(): JClass
    {
      match this
      case Source(name, _) => OtherStream(name)
      case Decorating(_) => DecoratingAltStreamClass
      case ThrowAtEnd(_, _, _) => ThrowAtEndStreamClass
    }

    /** The stream at the bottom of the chain, whose position reads consume. */
    function Bottom(): SourceStream
    {
      match this
      case Source(_, s) => s
      case Decorating(d) => d.Bottom()
      case ThrowAtEnd(_, _, d) => d.Bottom()
    }

    /** The layers from this one down to the bottom stream. */
    function Layers(): (ls: seq<Chain>)
      ensures |ls| >= 1 && ls[0] == this && ls[|ls| - 1].Source?
      ensures forall i :: 0 <= i < |ls| - 1 ==> ls[i].IsAlt() && ls[i + 1] == ls[i].decoratee
    {
      if Source? then [this] else [this] + decoratee.Layers()
    }
  }

  /** A `ThrowAtEndStream` holds exactly one of its two exceptions. */
  predicate WellFormedLayer(c: Chain)
    requires c.ThrowAtEnd?
  {
    c.ioException.Some? != c.runtimeException.Some? && c.decoratee.IsAlt()
  }

  /** `new ThrowAtEndStream(decoratee, ioException)`: `requireNonNull` rejects null. */
  function NewThrowAtEndForIO(decoratee: Chain, ioException: Option<nat>): (r: Outcome<Chain>)
    requires decoratee.IsAlt()
    ensures ioException.None? <==> r == Thrown(NullPointerException)
    ensures r.Value? ==>
      r.value.ThrowAtEnd? && WellFormedLayer(r.value) && r.value.ioException == ioException && r.value.decoratee == decoratee
  {
    if ioException.None? then Thrown(NullPointerException)
    else Value(ThrowAtEnd(ioException, None, decoratee))
  }

  /** `new ThrowAtEndStream(decoratee, runtimeException)`. */
  function NewThrowAtEndForRuntime(decoratee: Chain, runtimeException: Option<nat>): (r: Outcome<Chain>)
    requires decoratee.IsAlt()
    ensures runtimeException.None? <==> r == Thrown(NullPointerException)
    ensures r.Value? ==>
      r.value.ThrowAtEnd? && WellFormedLayer(r.value) && r.value.runtimeException == runtimeException && r.value.decoratee == decoratee
  {
    if runtimeException.None? then Thrown(NullPointerException)
    else Value(ThrowAtEnd(None, runtimeException, decoratee))
  }

  /** `throwException()`: the IOException if set, otherwise the
      RuntimeException (throwing a null one raises a NullPointerException). */
  function ThrowException(ioException: Option<nat>, runtimeException: Option<nat>): Exception
  {
    if ioException.Some? then IOException(ioException.value)
    else if runtimeException.Some? then RuntimeException(runtimeException.value)
    else NullPointerException
  }

  /** What `read()` on the chain yields when the bottom stream's next value is `next`. */
  function ReadResult(c: Chain, next: int): (r: Outcome<int>)
    ensures c.ThrowAtEnd? ==> r != Value(-1)
    ensures !r.Halted?
  {
    match c
    case Source(_, _) => Value(next)
    case Decorating(d) => ReadResult(d, next)
    case ThrowAtEnd(io, rt, d) =>
      var v := ReadResult(d, next);
      if v == Value(-1) then Thrown(ThrowException(io, rt)) else v
  }

  /** `read()` on a chain: each `DecoratingAltStream` returns what its
      decoratee returns, each `ThrowAtEndStream` replaces -1 by its exception.
      Only the bottom stream changes, and only when it is not at its end. */
  method Read(c: Chain) returns (r: Outcome<int>)
    modifies c.Bottom()
    ensures r == ReadResult(c, old(c.Bottom().Next()))
    ensures old(c.Bottom().Next()) != -1 ==> c.Bottom().position == old(c.Bottom().position) + 1
    ensures old(c.Bottom().Next()) == -1 ==> c.Bottom().position == old(c.Bottom().position)
    decreases c
  {
    match c {
      case Source(_, s) =>
        var v := s.Read();
        r := Value(v);
      case Decorating(d) =>
        r := Read(d);
      case ThrowAtEnd(io, rt, d) =>
        var v := Read(d);
        if v == Value(-1) {
          r := Thrown(ThrowException(io, rt));
        } else {
          r := v;
        }
    }
  }

  /** A byte that the bottom stream delivers passes through every layer unchanged. */
  lemma {:induction false} ValuesPassThrough(c: Chain, next: int)
    requires next != -1
    ensures ReadResult(c, next) == Value(next)
    decreases c
  {
    match c {
      case Source(_, _) =>
      case Decorating(d) => ValuesPassThrough(d, next);
      case ThrowAtEnd(_, _, d) => ValuesPassThrough(d, next);
    }
  }

  /** The `ThrowAtEndStream` nearest to the bottom, if any. */
  function InnermostThrowAtEnd(c: Chain): (r: Option<Chain>)
    ensures r.Some? ==> r.value.ThrowAtEnd? && r.value in c.Layers()
  {
    match c
    case Source(_, _) => None
    case Decorating(d) => InnermostThrowAtEnd(d)
    case ThrowAtEnd(_, _, d) =>
      var inner := InnermostThrowAtEnd(d);
      if inner.Some? then inner else Some(c)
  }

  /** At the end of input the chain reports -1 only when it has no
      `ThrowAtEndStream`; otherwise the innermost one throws and the layers
      above pass the exception on. */
  lemma {:induction false} ReadAtEnd(c: Chain)
    ensures InnermostThrowAtEnd(c).None? ==> ReadResult(c, -1) == Value(-1)
    ensures InnermostThrowAtEnd(c).Some? ==>
      var t := InnermostThrowAtEnd(c).value;
      ReadResult(c, -1) == Thrown(ThrowException(t.ioException, t.runtimeException))
    decreases c
  {
    match c {
      case Source(_, _) =>
      case Decorating(d) => ReadAtEnd(d);
      case ThrowAtEnd(_, _, d) => ReadAtEnd(d);
    }
  }

  /** `contains(t)` of an `AltInputStream` layer: the (unseen) base-class
      check `superContains`, the class of the decoratee, or a recursive
      search when the decoratee is itself an `AltInputStream`. */
  function Contains(c: Chain, t: JClass, superContains: (JClass, JClass) -> bool): bool
    requires c.IsAlt()
    decreases c
  {
    superContains(c.ClassOf(), t)
    || IsAssignableFrom(t, c.decoratee.ClassOf())
    || (c.decoratee.IsAlt() && Contains(c.decoratee, t, superContains))
  }

  /** The base-class check holds on one of the `AltInputStream` layers
      (all layers but the bottom one). */
  predicate SuperCheckSomewhere(ls: seq<Chain>, t: JClass, superContains: (JClass, JClass) -> bool)
  {
    exists i :: 0 <= i < |ls| - 1 && superContains(ls[i].ClassOf(), t)
  }

  /** Some layer below the top one is of class `t` or a subclass of it. */
  predicate AssignableBelowTop(ls: seq<Chain>, t: JClass)
  {
    exists i :: 1 <= i < |ls| && IsAssignableFrom(t, ls[i].ClassOf())
  }

  lemma SuperCheckCons(c: Chain, ds: seq<Chain>, t: JClass, superContains: (JClass, JClass) -> bool)
    requires |ds| >= 1
    ensures SuperCheckSomewhere([c] + ds, t, superContains)
        <==> superContains(c.ClassOf(), t) || SuperCheckSomewhere(ds, t, superContains)
  {
    var ls := [c] + ds;
    if SuperCheckSomewhere(ls, t, superContains) && !superContains(c.ClassOf(), t) {
      var i :| 0 <= i < |ls| - 1 && superContains(ls[i].ClassOf(), t);
      assert i > 0 && ds[i - 1] == ls[i];
    }
    if SuperCheckSomewhere(ds, t, superContains) {
      var i :| 0 <= i < |ds| - 1 && superContains(ds[i].ClassOf(), t);
      assert ls[i + 1] == ds[i];
    }
    if superContains(c.ClassOf(), t) {
      assert ls[0] == c;
    }
  }

  lemma AssignableCons(c: Chain, ds: seq<Chain>, t: JClass)
    requires |ds| >= 1
    ensures AssignableBelowTop([c] + ds, t) <==> IsAssignableFrom(t, ds[0].ClassOf()) || AssignableBelowTop(ds, t)
  {
    var ls := [c] + ds;
    if AssignableBelowTop(ls, t) && !IsAssignableFrom(t, ds[0].ClassOf()) {
      var i :| 1 <= i < |ls| && IsAssignableFrom(t, ls[i].ClassOf());
      assert i > 1 && ds[i - 1] == ls[i];
    }
    if AssignableBelowTop(ds, t) {
      var i :| 1 <= i < |ds| && IsAssignableFrom(t, ds[i].ClassOf());
      assert ls[i + 1] == ds[i];
    }
    if IsAssignableFrom(t, ds[0].ClassOf()) {
      assert ls[1] == ds[0];
    }
  }

  /** `contains(t)` holds exactly when the base-class check holds on some
      `AltInputStream` layer of the chain, or some layer below the top is of
      class `t` or a subclass of it: the search reaches every layer. */
  lemma {:induction false} ContainsSearchesWholeChain(c: Chain, t: JClass, superContains: (JClass, JClass) -> bool)
    requires c.IsAlt()
    ensures Contains(c, t, superContains)
        <==> SuperCheckSomewhere(c.Layers(), t, superContains) || AssignableBelowTop(c.Layers(), t)
    decreases c
  {
    var d := c.decoratee;
    var ds := d.Layers();
    assert c.Layers() == [c] + ds;
    SuperCheckCons(c, ds, t, superContains);
    AssignableCons(c, ds, t);
    if d.IsAlt() {
      ContainsSearchesWholeChain(d, t, superContains);
      assert ds == [d] + d.decoratee.Layers();
      AssignableCons(d, d.decoratee.Layers(), t);
      assert ds[0] == d;
    } else {
      assert ds == [d];
      assert !SuperCheckSomewhere(ds, t, superContains);
      assert !AssignableBelowTop(ds, t);
    }
  }
}

=== FILE: ambient.dfy ===
/** The process-wide state that the library swaps: `System.err`,
    `System.out`, `System.in`, the security manager, the system properties
    object and the environment (the map `m` behind `System.getenv()` and,
    where the platform has one, the case-insensitive map of
    `ProcessEnvironment`).

    Test code handed to the library (a `Statement`) is modelled as a script
    of actions on that state. `Run` is its meaning as a pure function, and
    `Ambient.Execute` carries it out on the objects, proved against `Run`. */
module Ambient {
  import opened Jvm
  import opened Sinks
  import opened Exit
  import ReplacementInput
  import AltStreams

  type Env = map<JString, JString>

  /** What `System.in` currently reads from (`NullIn` is null). */
  datatype InputRef =
    | NullIn
    | ExternalIn(id: nat)
    | LambdaStub(stream: ReplacementInput.ReplacementInputStream)
    | StubsChain(chain: AltStreams.Chain)

  /** A `java.util.Properties` object: a mutable table. */
  class Properties {
    var table: map<JString, JString>

    constructor (table: map<JString, JString>)
      ensures this.table == table
    {
      this.table := table;
    }

    /** `copyOf(source)`: a new object holding the same entries. */
    constructor CopyOf(source: Properties)
      ensures table == source.table
    {
      table := source.table;
    }

    method SetProperty(key: JString, value: JString)
      modifies this
      ensures table == old(table)[key := value]
    {
      table := table[key := value];
    }

    method ClearProperty(key: JString)
      modifies this
      ensures table == old(table) - {key}
    {
      table := table - {key};
    }
  }

  /** One step of test code. The streams and managers it can install are its
      own (identified by a number): the library's streams and
      `NoExitSecurityManager` are private classes that test code cannot
      create. `Swallow` runs an action and discards an exception it throws,
      as a `catch` block in the test code or a separate thread would. */
  datatype Action =
    | WriteErr(b: int)
    | WriteOut(b: int)
    | SetErr(errId: nat)
    | SetOut(outId: nat)
    | SetIn(inId: nat)
    | SetSecurityManager(managerId: Option<nat>)
    | SetProperty(key: JString, value: JString)
    | ClearProperty(key: JString)
    | PutEnv(name: JString, value: JString)
    | RemoveEnv(name: JString)
    | CallExit(status: int)
    | Raise(exception: Exception)
    | Swallow(action: Action)

  /** Test code: its actions in order. */
  type Statement = seq<Action>

  /** The values of the global slots. */
  datatype Slots = Slots(err: Sink, out: Sink, input: InputRef, securityManager: Policy,
                         properties: Properties, env: Env, ciEnv: Option<Env>)

  /** The change that one action makes to objects outside the slots. */
  datatype Effect =
    | NoEffect
    | TapWrite(tap: TapStream, byteWritten: byte)
    | ExternalWrite(streamId: nat, byteWritten: byte)
    | ExitRecorded(manager: NoExitSecurityManager, status: int)
    | PropertySet(key: JString, value: JString)
    | PropertyCleared(key: JString)

  datatype StepResult = StepResult(slots: Slots, effect: Effect, completion: Completion)

  datatype RunResult = RunResult(slots: Slots, trace: seq<Effect>, completion: Completion)

  /** The tap streams installed in the two output slots. */
  function TapsOf(err: Sink, out: Sink): set<TapStream>
  {
    (if err.Tap? then {err.stream} else {}) + (if out.Tap? then {out.stream} else {})
  }

  /** The intercepting manager installed in the security-manager slot. */
  function ManagersOf(p: Policy): set<NoExitSecurityManager>
  {
    if p.Intercepting? then {p.manager} else {}
  }

  /** `write(b)` on the stream in an output slot. */
  function Emit(s: Slots, sink: Sink, b: int): StepResult
  {
    match sink
    case External(id) => StepResult(s, ExternalWrite(id, ToByte(b)), Normal)
    case Noop => StepResult(s, NoEffect, Normal)
    case Disallow => StepResult(s, NoEffect, Abrupt(AssertionError(DisallowMessage(b))))
    case Tap(t) => StepResult(s, TapWrite(t, ToByte(b)), Normal)
  }

  /** The meaning of one action. */
  function Step(s: Slots, a: Action): (r: StepResult)
    ensures r.slots.properties == s.properties && r.slots.ciEnv.None? == s.ciEnv.None?
    ensures TapsOf(r.slots.err, r.slots.out) <= TapsOf(s.err, s.out)
    ensures ManagersOf(r.slots.securityManager) <= ManagersOf(s.securityManager)
    ensures r.effect.TapWrite? ==> r.effect.tap in TapsOf(s.err, s.out)
    ensures r.effect.ExitRecorded? ==> r.effect.manager in ManagersOf(s.securityManager)
  {
    match a
    case WriteErr(b) => Emit(s, s.err, b)
    case WriteOut(b) => Emit(s, s.out, b)
    case SetErr(id) => StepResult(s.(err := External(id)), NoEffect, Normal)
    case SetOut(id) => StepResult(s.(out := External(id)), NoEffect, Normal)
    case SetIn(id) => StepResult(s.(input := ExternalIn(id)), NoEffect, Normal)
    case SetSecurityManager(id) =>
      StepResult(s.(securityManager := if id.None? then NoManager else Plain(id.value)), NoEffect, Normal)
    case SetProperty(k, v) => StepResult(s, PropertySet(k, v), Normal)
    case ClearProperty(k) => StepResult(s, PropertyCleared(k), Normal)
    case PutEnv(n, v) =>
      StepResult(s.(env := s.env[n := v], ciEnv := if s.ciEnv.None? then None else Some(s.ciEnv.value[n := v])),
                 NoEffect, Normal)
    case RemoveEnv(n) =>
      StepResult(s.(env := s.env - {n}, ciEnv := if s.ciEnv.None? then None else Some(s.ciEnv.value - {n})),
                 NoEffect, Normal)
    case CallExit(status) =>
      // `Runtime.exit` asks the security manager first; a manager that is
      // not the library's is taken to permit the exit.
      if s.securityManager.Intercepting? then
        StepResult(s, ExitRecorded(s.securityManager.manager, status), Abrupt(CheckExitCalled))
      else
        StepResult(s, NoEffect, Exited(status))
    case Raise(e) => StepResult(s, NoEffect, Abrupt(e))
    case Swallow(inner) =>
      var r := Step(s, inner);
      if r.completion.Abrupt? then r.(completion := Normal) else r
  }

  /** The meaning of a statement: its actions run in order until one of them
      completes abruptly or halts. The trace holds one effect per action
      that ran. */
  function Run(s: Slots, stmt: Statement): (r: RunResult)
    ensures r.slots.properties == s.properties && r.slots.ciEnv.None? == s.ciEnv.None?
    ensures |r.trace| <= |stmt|
    ensures r.completion.Normal? ==> |r.trace| == |stmt|
    ensures !r.completion.Normal? ==> 1 <= |r.trace|
    decreases |stmt|
  {
    if stmt == [] then RunResult(s, [], Normal)
    else
      var first := Step(s, stmt[0]);
      if first.completion.Normal? then
        var rest := Run(first.slots, stmt[1..]);
        RunResult(rest.slots, [first.effect] + rest.trace, rest.completion)
      else
        RunResult(first.slots, [first.effect], first.completion)
  }

  /** `r` with `trace` in front of its trace. */
  function Prepend(trace: seq<Effect>, r: RunResult): RunResult
  {
    RunResult(r.slots, trace + r.trace, r.completion)
  }

  // The effects of a trace on the objects outside the slots.

  function TapBytesOf(e: Effect, t: TapStream): seq<byte>
  {
    if e.TapWrite? && e.tap == t then [e.byteWritten] else []
  }

  /** The bytes that the trace writes to tap `t`, in order. */
  function TapBytes(trace: seq<Effect>, t: TapStream): seq<byte>
  {
    if trace == [] then [] else TapBytesOf(trace[0], t) + TapBytes(trace[1..], t)
  }

  function PropertiesAfterEffect(table: map<JString, JString>, e: Effect): map<JString, JString>
  {
    match e
    case PropertySet(k, v) => table[k := v]
    case PropertyCleared(k) => table - {k}
    case _ => table
  }

  /** The properties table after the trace. */
  function PropertiesAfter(table: map<JString, JString>, trace: seq<Effect>): map<JString, JString>
    decreases |trace|
  {
    if trace == [] then table else PropertiesAfter(PropertiesAfterEffect(table, trace[0]), trace[1..])
  }

  function ExitStatusAfterEffect(status: Option<int>, e: Effect, m: NoExitSecurityManager): Option<int>
  {
    if e.ExitRecorded? && e.manager == m && status.None? then Some(e.status) else status
  }

  /** The status that manager `m` holds after the trace. */
  function ExitStatusAfter(status: Option<int>, trace: seq<Effect>, m: NoExitSecurityManager): Option<int>
    decreases |trace|
  {
    if trace == [] then status else ExitStatusAfter(ExitStatusAfterEffect(status, trace[0], m), trace[1..], m)
  }

  /** `Run` on a statement that is not empty: its first step, then the rest. */
  lemma RunCons(s: Slots, stmt: Statement)
    requires stmt != []
    ensures var first := Step(s, stmt[0]);
      Run(s, stmt) ==
        if first.completion.Normal? then Prepend([first.effect], Run(first.slots, stmt[1..]))
        else RunResult(first.slots, [first.effect], first.completion)
  {
  }

  /** What a trace does is what its first effect does, then the rest. */
  lemma TraceCons(e: Effect, trace: seq<Effect>, table: map<JString, JString>)
    ensures forall t :: TapBytes([e] + trace, t) == TapBytesOf(e, t) + TapBytes(trace, t)
    ensures PropertiesAfter(table, [e] + trace) == PropertiesAfter(PropertiesAfterEffect(table, e), trace)
    ensures forall status, m :: ExitStatusAfter(status, [e] + trace, m) == ExitStatusAfter(ExitStatusAfterEffect(status, e, m), trace, m)
  {
    assert ([e] + trace)[0] == e && ([e] + trace)[1..] == trace;
  }

  /** A statement writes only to the taps installed when it starts and
      reports exits only to the manager installed then: it cannot install
      either kind itself. */
  lemma {:induction false} RunTouchesOnlyInstalled(s: Slots, stmt: Statement)
    ensures forall t :: t !in TapsOf(s.err, s.out) ==> TapBytes(Run(s, stmt).trace, t) == []
    ensures forall m, status :: m !in ManagersOf(s.securityManager) ==>
      ExitStatusAfter(status, Run(s, stmt).trace, m) == status
    decreases |stmt|
  {
    if stmt != [] {
      var first := Step(s, stmt[0]);
      if first.completion.Normal? {
        RunTouchesOnlyInstalled(first.slots, stmt[1..]);
      }
    }
  }

  /** The global state of the virtual machine. Bytes written to output
      streams that are not the library's appear in the trace only. */
  class Ambient {
    var err: Sink
    var out: Sink
    var input: InputRef
    var securityManager: Policy
    var properties: Properties
    var env: Env
    var ciEnv: Option<Env>

    constructor (err: Sink, out: Sink, input: InputRef, securityManager: Policy,
                 properties: Properties, env: Env, ciEnv: Option<Env>)
      ensures Current() == Slots(err, out, input, securityManager, properties, env, ciEnv)
    {
      this.err := err;
      this.out := out;
      this.input := input;
      this.securityManager := securityManager;
      this.properties := properties;
      this.env := env;
      this.ciEnv := ciEnv;
    }

    function Current(): Slots
      reads this
    {
      Slots(err, out, input, securityManager, properties, env, ciEnv)
    }

    /** Writes `b` to the stream in an output slot. */
    method WriteTo(sink: Sink, b: int) returns (c: Completion, ghost e: Effect)
      modifies TapsOf(sink, sink)
      ensures Current() == old(Current())
      ensures e == Emit(old(Current()), sink, b).effect && c == Emit(old(Current()), sink, b).completion
      ensures forall t :: t in TapsOf(sink, sink) ==> t.written == old(t.written) + TapBytesOf(e, t)
    {
      match sink {
        case External(id) =>
          c, e := Normal, ExternalWrite(id, ToByte(b));
        case Noop =>
          c, e := Normal, NoEffect;
        case Disallow =>
          c, e := Abrupt(AssertionError(DisallowMessage(b))), NoEffect;
        case Tap(t) =>
          t.Write(b);
          c, e := Normal, TapWrite(t, ToByte(b));
      }
    }

    /** Carries out one action. */
    method Perform(a: Action) returns (c: Completion, ghost e: Effect)
      modifies this, properties, TapsOf(err, out), ManagersOf(securityManager)
      ensures Current() == Step(old(Current()), a).slots
      ensures c == Step(old(Current()), a).completion && e == Step(old(Current()), a).effect
      ensures properties.table == PropertiesAfterEffect(old(properties.table), e)
      ensures forall t :: t in old(TapsOf(err, out)) ==> t.written == old(t.written) + TapBytesOf(e, t)
      ensures forall m :: m in old(ManagersOf(securityManager)) ==>
        m.statusOfFirstExitCall == ExitStatusAfterEffect(old(m.statusOfFirstExitCall), e, m)
      decreases a
    {
      if a.WriteErr? || a.WriteOut? {
        c, e := PerformWrite(a);
      } else if a.SetProperty? || a.ClearProperty? {
        c, e := PerformOnProperties(a);
      } else if a.CallExit? {
        c, e := PerformExit(a);
      } else if a.Swallow? {
        c, e := Perform(a.action);
        if c.Abrupt? {
          c := Normal;
        }
      } else {
        c, e := PerformOnSlots(a);
      }
    }

    /** A write to `System.err` or `System.out`. */
    method PerformWrite(a: Action) returns (c: Completion, ghost e: Effect)
      requires a.WriteErr? || a.WriteOut?
      modifies TapsOf(err, out)
      ensures Current() == Step(old(Current()), a).slots
      ensures c == Step(old(Current()), a).completion && e == Step(old(Current()), a).effect
      ensures properties.table == PropertiesAfterEffect(old(properties.table), e)
      ensures forall t :: t in old(TapsOf(err, out)) ==> t.written == old(t.written) + TapBytesOf(e, t)
      ensures forall m :: m in old(ManagersOf(securityManager)) ==>
        m.statusOfFirstExitCall == ExitStatusAfterEffect(old(m.statusOfFirstExitCall), e, m)
    {
      if a.WriteErr? {
        c, e := WriteTo(err, a.b);
      } else {
        c, e := WriteTo(out, a.b);
      }
    }

    /** An action that changes only the slots. */
    method PerformOnSlots(a: Action) returns (c: Completion, ghost e: Effect)
      requires !a.WriteErr? && !a.WriteOut? && !a.SetProperty? && !a.ClearProperty? && !a.CallExit? && !a.Swallow?
      modifies this
      ensures Current() == Step(old(Current()), a).slots
      ensures c == Step(old(Current()), a).completion && e == Step(old(Current()), a).effect
      ensures properties.table == PropertiesAfterEffect(old(properties.table), e)
      ensures forall t :: t in old(TapsOf(err, out)) ==> t.written == old(t.written) + TapBytesOf(e, t)
      ensures forall m :: m in old(ManagersOf(securityManager)) ==>
        m.statusOfFirstExitCall == ExitStatusAfterEffect(old(m.statusOfFirstExitCall), e, m)
    {
      match a {
        case SetErr(id) =>
          err := External(id);
        case SetOut(id) =>
          out := External(id);
        case SetIn(id) =>
          input := ExternalIn(id);
        case SetSecurityManager(id) =>
          securityManager := if id.None? then NoManager else Plain(id.value);
        case PutEnv(n, v) =>
          env := env[n := v];
          if ciEnv.Some? {
            ciEnv := Some(ciEnv.value[n := v]);
          }
        case RemoveEnv(n) =>
          env := env - {n};
          if ciEnv.Some? {
            ciEnv := Some(ciEnv.value - {n});
          }
        case Raise(x) =>
      }
      c, e := if a.Raise? then Abrupt(a.exception) else Normal, NoEffect;
    }

    /** An action on the system properties object. */
    method PerformOnProperties(a: Action) returns (c: Completion, ghost e: Effect)
      requires a.SetProperty? || a.ClearProperty?
      modifies properties
      ensures Current() == Step(old(Current()), a).slots
      ensures c == Step(old(Current()), a).completion && e == Step(old(Current()), a).effect
      ensures properties.table == PropertiesAfterEffect(old(properties.table), e)
      ensures forall t :: t in old(TapsOf(err, out)) ==> t.written == old(t.written) + TapBytesOf(e, t)
      ensures forall m :: m in old(ManagersOf(securityManager)) ==>
        m.statusOfFirstExitCall == ExitStatusAfterEffect(old(m.statusOfFirstExitCall), e, m)
    {
      if a.SetProperty? {
        properties.SetProperty(a.key, a.value);
        c, e := Normal, PropertySet(a.key, a.value);
      } else {
        properties.ClearProperty(a.key);
        c, e := Normal, PropertyCleared(a.key);
      }
    }

    /** `System.exit(status)`: the intercepting manager records the status
        and throws; any other manager lets the virtual machine halt. */
    method PerformExit(a: Action) returns (c: Completion, ghost e: Effect)
      requires a.CallExit?
      modifies ManagersOf(securityManager)
      ensures Current() == Step(old(Current()), a).slots
      ensures c == Step(old(Current()), a).completion && e == Step(old(Current()), a).effect
      ensures properties.table == PropertiesAfterEffect(old(properties.table), e)
      ensures forall t :: t in old(TapsOf(err, out)) ==> t.written == old(t.written) + TapBytesOf(e, t)
      ensures forall m :: m in old(ManagersOf(securityManager)) ==>
        m.statusOfFirstExitCall == ExitStatusAfterEffect(old(m.statusOfFirstExitCall), e, m)
    {
      if securityManager.Intercepting? {
        var m := securityManager.manager;
        var thrown := m.CheckExit(a.status);
        c, e := Abrupt(thrown), ExitRecorded(m, a.status);
      } else {
        c, e := Exited(a.status), NoEffect;
      }
    }

    /** `statement.execute()`: runs the actions in order and stops at the
        first one that does not complete normally. */
    method Execute(stmt: Statement) returns (c: Completion, ghost trace: seq<Effect>)
      modifies this, properties, TapsOf(err, out), ManagersOf(securityManager)
      ensures Run(old(Current()), stmt) == RunResult(Current(), trace, c)
      ensures properties.table == PropertiesAfter(old(properties.table), trace)
      ensures forall t :: t in old(TapsOf(err, out)) ==> t.written == old(t.written) + TapBytes(trace, t)
      ensures forall m :: m in old(ManagersOf(securityManager)) ==>
        m.statusOfFirstExitCall == ExitStatusAfter(old(m.statusOfFirstExitCall), trace, m)
      decreases |stmt|
    {
      if stmt == [] {
        return Normal, [];
      }
      ghost var e;
      RunCons(old(Current()), stmt);
      ghost var table := properties.table;
      c, e := Perform(stmt[0]);
      if c.Normal? {
        ghost var s := Current();
        RunTouchesOnlyInstalled(s, stmt[1..]);
        label middle:
        ghost var rest;
        c, rest := Execute(stmt[1..]);
        trace := [e] + rest;
        assert trace[0] == e && trace[1..] == rest;
        forall t | t in old(TapsOf(err, out))
          ensures t.written == old(t.written) + TapBytes(trace, t)
        {
          if t !in TapsOf(s.err, s.out) {
            assert t.written == old@middle(t.written);
          }
        }
        forall m | m in old(ManagersOf(securityManager))
          ensures m.statusOfFirstExitCall == ExitStatusAfter(old(m.statusOfFirstExitCall), trace, m)
        {
          if m !in ManagersOf(s.securityManager) {
            assert m.statusOfFirstExitCall == old@middle(m.statusOfFirstExitCall);
          }
        }
      } else {
        TraceCons(e, [], table);
        trace := [e];
      }
    }
  }
}

=== FILE: env_overrides.dfy ===
/** Environment-variable override sets, as both `SystemLambda.WithEnvironmentVariables`
    and system-stubs' `EnvironmentVariables` implement them: a map from
    names to values in which a null value means "remove the variable",
    applied to the environment maps in place and undone by clearing the maps
    and refilling them from a snapshot. */
module EnvOverrides {
  import opened Jvm
  import opened Ambient

  /** Names and the values they are to take; `None` is a null value. */
  type Overrides = map<JString, Option<JString>>

  /** The environment once the overrides are applied. */
  function Overridden(env: Env, vars: Overrides): (r: Env)
    ensures forall n :: n in vars && vars[n].Some? ==> n in r && r[n] == vars[n].value
    ensures forall n :: n in vars && vars[n].None? ==> n !in r
    ensures forall n :: n !in vars ==> (n in r <==> n in env) && (n in r ==> r[n] == env[n])
  {
    map n | n in env.Keys + vars.Keys && !(n in vars && vars[n].None?) ::
      if n in vars then vars[n].value else env[n]
  }

  /** `set`/`setOrRemoveInMap(variables, name, value)`: remove on null, put otherwise. */
  function SetOrRemoveInMap(variables: Env, name: JString, value: Option<JString>): (r: Env)
    ensures value.None? ==> name !in r
    ensures value.Some? ==> name in r && r[name] == value.value
    ensures forall n :: n != name ==> (n in r <==> n in variables) && (n in r ==> r[n] == variables[n])
  {
    if value.None? then variables - {name} else variables[name := value.value]
  }

  /** `overrideVariables(existingVariables)`: every override is applied in
      turn. The order of the names does not matter, as they are distinct. */
  method OverrideVariables(existingVariables: Env, vars: Overrides) returns (r: Env)
    ensures r == Overridden(existingVariables, vars)
  {
    r := existingVariables;
    var done: set<JString> := {};
    while done != vars.Keys
      invariant done <= vars.Keys
      invariant AppliedTo(existingVariables, vars, done, r)
      decreases |vars.Keys - done|
    {
      var name :| name in vars.Keys - done;
      AppliedOneMore(existingVariables, vars, done, r, name);
      r := SetOrRemoveInMap(r, name, vars[name]);
      done := done + {name};
    }
    AppliedAll(existingVariables, vars, r);
  }

  /** `r` is `env` with the overrides of the names in `done` applied. */
  ghost predicate AppliedTo(env: Env, vars: Overrides, done: set<JString>, r: Env)
  {
    forall n :: if n in done && n in vars then
      (vars[n].Some? ==> n in r && r[n] == vars[n].value) && (vars[n].None? ==> n !in r)
    else (n in r <==> n in env) && (n in r ==> r[n] == env[n])
  }

  /** Applying one more override keeps `AppliedTo`, with that name done. */
  lemma AppliedOneMore(env: Env, vars: Overrides, done: set<JString>, r: Env, name: JString)
    requires done <= vars.Keys && name in vars && name !in done && AppliedTo(env, vars, done, r)
    ensures AppliedTo(env, vars, done + {name}, SetOrRemoveInMap(r, name, vars[name]))
  {
  }

  /** Once every name is done, the result is `Overridden`. */
  lemma AppliedAll(env: Env, vars: Overrides, r: Env)
    requires AppliedTo(env, vars, vars.Keys, r)
    ensures r == Overridden(env, vars)
  {
    var expected := Overridden(env, vars);
    assert forall n :: n in r <==> n in expected;
    assert forall n :: n in r ==> r[n] == expected[n];
  }

  /** Overriding twice with the same set is overriding once: re-applying
      every stored override (as `set` does on an active object) leaves the
      variables already overridden as they are. */
  lemma {:induction false} OverrideIdempotent(env: Env, vars: Overrides)
    ensures Overridden(Overridden(env, vars), vars) == Overridden(env, vars)
  {
    var once := Overridden(env, vars);
    var twice := Overridden(once, vars);
    assert forall n :: n in twice <==> n in once;
    assert forall n :: n in twice ==> twice[n] == once[n];
  }

  /** `setEnvironmentVariables()`: the overrides are applied to the map `m`
      and, when the platform has it, to the case-insensitive map. */
  method SetEnvironmentVariables(amb: Ambient, vars: Overrides)
    modifies amb
    ensures amb.Current() == old(amb.Current()).(
      env := Overridden(old(amb.env), vars),
      ciEnv := if old(amb.ciEnv).None? then None else Some(Overridden(old(amb.ciEnv).value, vars)))
  {
    amb.env := OverrideVariables(amb.env, vars);
    if amb.ciEnv.Some? {
      var ci := OverrideVariables(amb.ciEnv.value, vars);
      amb.ciEnv := Some(ci);
    }
  }

  /** `restoreVariables(variables, originalVariables)`: an absent map is
      skipped; a present one is cleared and refilled from the snapshot. A
      null snapshot makes `putAll` throw after the map was cleared. */
  method RestoreVariables(variables: Option<Env>, originalVariables: Option<Env>)
    returns (r: Option<Env>, thrown: Option<Exception>)
    ensures variables.None? ==> r == None && thrown == None
    ensures variables.Some? && originalVariables.Some? ==> r == originalVariables && thrown == None
    ensures variables.Some? && originalVariables.None? ==> r == Some(map[]) && thrown == Some(NullPointerException)
  {
    if variables.None? {
      return None, None;
    }
    var cleared: Env := map[];
    if originalVariables.None? {
      return Some(cleared), Some(NullPointerException);
    }
    assert cleared + originalVariables.value == originalVariables.value;
    return Some(cleared + originalVariables.value), None;
  }

  /** `restoreOriginalVariables(originalVariables)`: the map `m` first, then
      the case-insensitive map; an exception from the first stops the second. */
  method RestoreOriginalVariables(amb: Ambient, originalVariables: Option<Env>) returns (c: Completion)
    modifies amb
    ensures originalVariables.Some? ==>
      c == Normal
      && amb.Current() == old(amb.Current()).(
           env := originalVariables.value,
           ciEnv := if old(amb.ciEnv).None? then None else originalVariables)
    ensures originalVariables.None? ==>
      c == Abrupt(NullPointerException) && amb.Current() == old(amb.Current()).(env := map[])
  {
    var m, thrown := RestoreVariables(Some(amb.env), originalVariables);
    amb.env := m.value;
    if thrown.Some? {
      return Abrupt(thrown.value);
    }
    var ci;
    ci, thrown := RestoreVariables(amb.ciEnv, originalVariables);
    amb.ciEnv := ci;
    c := Normal;
  }

  /** `format(text)`: `null`, or the text in single quotes. */
  function Format(text: Option<JString>): (r: JString)
    ensures text.None? ==> r == Str("null")
    ensures text.Some? ==>
      && |r| == |text.value| + 2 && r[0] == Str("'")[0] && r[1..|r| - 1] == text.value
      && r[|r| - 1] == Str("'")[0]
  {
    if text.None? then Str("null") else Str("'") + text.value + Str("'")
  }

  /** Formatting loses nothing: different values are formatted differently. */
  lemma FormatInjective(a: Option<JString>, b: Option<JString>)
    ensures Format(a) == Format(b) <==> a == b
  {
    if a.Some? && b.Some? && Format(a) == Format(b) {
      assert a.value == Format(a)[1..|Format(a)| - 1];
      assert b.value == Format(b)[1..|Format(b)| - 1];
    }
    if a.Some? != b.Some? {
      var quoted := if a.Some? then Format(a) else Format(b);
      var absent := if a.Some? then Format(b) else Format(a);
      assert absent[0] as int == 'n' as int && quoted[0] as int == '\'' as int;
    }
  }

  /** The message of the `IllegalArgumentException` for a name that is set already. */
  function DuplicateMessage(name: JString, value: Option<JString>, currentValue: Option<JString>): JString
  {
    Str("The environment variable '") + name + Str("' cannot be set to ") + Format(value)
      + Str(" because it was already set to ") + Format(currentValue) + Str(".")
  }

  /** `validateNotSet(name, value)`: a name may be given only once. */
  function ValidateNotSet(variables: Overrides, name: JString, value: Option<JString>): (r: Option<Exception>)
    ensures r.None? <==> name !in variables
    ensures r.Some? ==> r.value == IllegalArgumentException(DuplicateMessage(name, value, variables[name]))
  {
    if name in variables then Some(IllegalArgumentException(DuplicateMessage(name, value, variables[name])))
    else None
  }
}

=== FILE: exit.dfy ===
/** Interception of `System.exit`: `NoExitSecurityManager` remembers the
    status of the first `checkExit` call and turns every call into a
    `CheckExitCalled` exception, and `checkSystemExit` reads the status back. */
module Exit {
  import opened Jvm

  /** The value of the security-manager slot: none, a manager that is not
      part of this library, or an intercepting `NoExitSecurityManager`. */
  datatype Policy = NoManager | Plain(id: nat) | Intercepting(manager: NoExitSecurityManager)

  /** Where a security check other than `checkExit` goes. */
  datatype Decision = NoOp | ForwardedTo(policy: Policy)

  class NoExitSecurityManager {
    const originalSecurityManager: Policy
    var statusOfFirstExitCall: Option<int>

    constructor (originalSecurityManager: Policy)
      ensures this.originalSecurityManager == originalSecurityManager
      ensures statusOfFirstExitCall == None
    {
      this.originalSecurityManager := originalSecurityManager;
      statusOfFirstExitCall := None;
    }

    /** `checkExit(status)`: records the status only if none was recorded
        before, and always throws `CheckExitCalled`. */
    method CheckExit(status: int) returns (thrown: Exception)
      modifies this
      ensures old(statusOfFirstExitCall).None? ==> statusOfFirstExitCall == Some(status)
      ensures old(statusOfFirstExitCall).Some? ==> statusOfFirstExitCall == old(statusOfFirstExitCall)
      ensures thrown == CheckExitCalled
    {
      if statusOfFirstExitCall == None {
        statusOfFirstExitCall := Some(status);
      }
      thrown := CheckExitCalled;
    }

    predicate IsCheckExitCalled()
      reads this
    {
      statusOfFirstExitCall != None
    }

    /** `getStatusOfFirstCheckExitCall()`. */
    function GetStatusOfFirstCheckExitCall(): (r: Outcome<int>)
      reads this
      ensures r.Value? <==> IsCheckExitCalled()
      ensures r.Value? ==> Some(r.value) == statusOfFirstExitCall
      ensures !r.Value? ==> r == Thrown(IllegalStateException(Str("checkExit(int) has not been called.")))
    {
      match statusOfFirstExitCall
      case Some(status) => Value(status)
      case None => Thrown(IllegalStateException(Str("checkExit(int) has not been called.")))
    }

    /** Every other check (`checkPermission`, `checkAccess`, `checkRead`, ...)
        is forwarded to the original manager when there is one and does
        nothing otherwise. */
    function OtherCheck(): (d: Decision)
      ensures d.NoOp? <==> originalSecurityManager.NoManager?
      ensures d.ForwardedTo? ==> d.policy == originalSecurityManager
    {
      if originalSecurityManager.NoManager? then NoOp else ForwardedTo(originalSecurityManager)
    }
  }

  const NotCalledMessage: JString := Str("System.exit has not been called.")

  /** `checkSystemExit(manager)`: the first recorded status, or an
      `AssertionError` when `checkExit` was never called. */
  function CheckSystemExit(manager: NoExitSecurityManager): (r: Outcome<int>)
    reads manager
    ensures r.Value? <==> manager.statusOfFirstExitCall.Some?
    ensures r.Value? ==> manager.statusOfFirstExitCall == Some(r.value)
    ensures !r.Value? ==> r == Thrown(AssertionError(NotCalledMessage))
  {
    if manager.IsCheckExitCalled() then manager.GetStatusOfFirstCheckExitCall()
    else Thrown(AssertionError(NotCalledMessage))
  }
}

=== FILE: jvm.dfy ===
/** Java-level vocabulary shared by every module: UTF-16 strings, signed
    bytes, the exceptions the library throws or passes through, and the
    ways a piece of code can complete. */
module Jvm {

  /** A UTF-16 code unit, the element type of a Java `String`. */
  newtype char16 = x: int | 0 <= x < 0x1_0000

  /** A Java `byte` (signed, two's complement). */
  newtype byte = x: int | -128 <= x < 128

  /** A Java `String` that is not null. */
  type JString = seq<char16>

  datatype Option<+T> = None | Some(value: T)

  /** Converts a Dafny string literal (ASCII in this model) to UTF-16 code units. */
  function Str(s: string): (r: JString)
    ensures |r| == |s|
    ensures forall i :: 0 <= i < |s| && (s[i] as int) < 0x1_0000 ==> r[i] as int == s[i] as int
  {
    seq(|s|, i requires 0 <= i < |s| => (if (s[i] as int) < 0x1_0000 then s[i] as int else 0xFFFD) as char16)
  }

  /** The cast `(byte) x` of a Java `int`: keeps the low eight bits, read as signed. */
  function ToByte(x: int): (r: byte)
    ensures (r as int - x) % 256 == 0
  {
    var low := x % 256;
    (if low < 128 then low else low - 256) as byte
  }

  /** The cast `(char) x` of a Java `int`: keeps the low sixteen bits. */
  function ToChar(x: int): (r: char16)
    ensures (r as int - x) % 0x1_0000 == 0
  {
    (x % 0x1_0000) as char16
  }

  /** Decoding bytes to text with a single-byte default charset: each byte
      becomes the character with its unsigned value. */
  function Decode(bytes: seq<byte>): (r: JString)
    ensures |r| == |bytes|
    ensures forall i :: 0 <= i < |bytes| ==> r[i] as int == (bytes[i] as int) % 256
  {
    seq(|bytes|, i requires 0 <= i < |bytes| => ((bytes[i] as int) % 256) as char16)
  }

  /** Exceptions and errors that occur in the modelled code. Exceptions that
      are objects supplied by the caller carry an identity `id`. */
  datatype Exception =
    | IOException(id: nat)
    | RuntimeException(id: nat)
    | UserException(id: nat)
    | AssertionError(message: JString)
    | IllegalStateException(message: JString)
    | IllegalArgumentException(message: JString)
    | NullPointerException
    | IndexOutOfBoundsException
    | CheckExitCalled

  /** How a piece of code completes: with a value, by throwing, or by
      terminating the virtual machine. */
  datatype Outcome<+T> = Value(value: T) | Thrown(exception: Exception) | Halted(status: int)
  {
    predicate IsFailure() { !Value? }
  }

  /** How a statement (code without a result) completes. */
  datatype Completion = Normal | Abrupt(exception: Exception) | Exited(status: int)
}

=== FILE: log_print_stream.dfy ===
/** `LogPrintStream` of System Rules (used by `SystemErrRule` and
    `SystemOutRule`): a `MuteableLogStream` replaces the stream, forwards
    every byte to the original stream and, once the log is enabled, also
    appends it to an in-memory log. */
module LogPrint {
  import opened Jvm
  import opened Text

  /** The stream that was in place before: what it received. */
  class OriginalStream {
    var written: seq<byte>
    var flushes: nat
    var closes: nat

    constructor ()
      ensures written == [] && flushes == 0 && closes == 0
    {
      written := [];
      flushes := 0;
      closes := 0;
    }

    method Write(b: int)
      modifies this
      ensures written == old(written) + [ToByte(b)] && flushes == old(flushes) && closes == old(closes)
    {
      written := written + [ToByte(b)];
    }

    method Flush()
      modifies this
      ensures flushes == old(flushes) + 1 && written == old(written) && closes == old(closes)
    {
      flushes := flushes + 1;
    }

    method Close()
      modifies this
      ensures closes == old(closes) + 1 && written == old(written) && flushes == old(flushes)
    {
      closes := closes + 1;
    }
  }

  /** What happens to a `MuteableLogStream`, in order. */
  datatype Event = Written(b: int) | LogEnabled | LogCleared | Flushed | Closed

  datatype LogState = LogState(log: seq<byte>, muted: bool)

  /** One event's effect on the log and the mute flag. */
  function Apply(st: LogState, e: Event): LogState
  {
    match e
    case Written(b) => if st.muted then st else st.(log := st.log + [ToByte(b)])
    case LogEnabled => st.(muted := false)
    case LogCleared => st.(log := [])
    case Flushed => st
    case Closed => st
  }

  /** The log and the flag after the events, from an empty, muted log. */
  function Replay(evs: seq<Event>): LogState
  {
    if evs == [] then LogState([], true)
    else Apply(Replay(evs[..|evs| - 1]), evs[|evs| - 1])
  }

  /** The bytes of the writes among the events, in order. */
  function Writes(evs: seq<Event>): seq<byte>
  {
    if evs == [] then []
    else Writes(evs[..|evs| - 1]) + (if evs[|evs| - 1].Written? then [ToByte(evs[|evs| - 1].b)] else [])
  }

  /** The index of the first `enableLog`. */
  function FirstEnabled(evs: seq<Event>): (r: Option<nat>)
    ensures r.None? <==> forall i :: 0 <= i < |evs| ==> evs[i] != LogEnabled
    ensures r.Some? ==> r.value < |evs| && evs[r.value] == LogEnabled
    ensures r.Some? ==> forall i :: 0 <= i < r.value ==> evs[i] != LogEnabled
  {
    if evs == [] then None
    else
      var p := evs[..|evs| - 1];
      var before := FirstEnabled(p);
      assert forall i :: 0 <= i < |p| ==> p[i] == evs[i];
      if before.Some? then before
      else if evs[|evs| - 1] == LogEnabled then Some(|p|)
      else None
  }

  /** The index of the last `clearLog`. */
  function LastCleared(evs: seq<Event>): (r: Option<nat>)
    ensures r.None? <==> forall i :: 0 <= i < |evs| ==> evs[i] != LogCleared
    ensures r.Some? ==> r.value < |evs| && evs[r.value] == LogCleared
    ensures r.Some? ==> forall i :: r.value < i < |evs| ==> evs[i] != LogCleared
  {
    if evs == [] then None
    else
      var p := evs[..|evs| - 1];
      assert forall i :: 0 <= i < |p| ==> p[i] == evs[i];
      if evs[|evs| - 1] == LogCleared then Some(|p|)
      else LastCleared(p)
  }

  /** Where the log begins: after the first `enableLog` and after the last
      `clearLog` (at the end when the log was never enabled). */
  function LogStart(evs: seq<Event>): (start: nat)
    ensures start <= |evs|
  {
    var enabled := if FirstEnabled(evs).Some? then FirstEnabled(evs).value + 1 else |evs|;
    var cleared := if LastCleared(evs).Some? then LastCleared(evs).value + 1 else 0;
    if enabled < cleared then cleared else enabled
  }

  lemma WritesSnoc(evs: seq<Event>, e: Event)
    ensures Writes(evs + [e]) == Writes(evs) + (if e.Written? then [ToByte(e.b)] else [])
  {
    assert (evs + [e])[..|evs + [e]| - 1] == evs;
  }

  lemma ReplaySnoc(p: seq<Event>, e: Event)
    ensures Replay(p + [e]) == Apply(Replay(p), e)
  {
    assert (p + [e])[..|p + [e]| - 1] == p;
  }

  /** One more event moves the log's start to the end, or keeps it. */
  lemma LogStartSnoc(p: seq<Event>, e: Event)
    ensures e == LogCleared ==> LogStart(p + [e]) == |p| + 1
    ensures e != LogCleared && FirstEnabled(p).None? ==> LogStart(p + [e]) == |p| + 1
    ensures e != LogCleared && FirstEnabled(p).Some? ==> LogStart(p + [e]) == LogStart(p)
    ensures FirstEnabled(p + [e]).None? <==> FirstEnabled(p).None? && e != LogEnabled
  {
    var evs := p + [e];
    assert evs[..|evs| - 1] == p;
    assert FirstEnabled(evs) ==
      if FirstEnabled(p).Some? then FirstEnabled(p) else if e == LogEnabled then Some(|p|) else None;
    assert LastCleared(evs) == if e == LogCleared then Some(|p|) else LastCleared(p);
  }

  /** The step of `ReplayLog` for an event that does not clear the log,
      while the log is still muted. */
  lemma ReplayMutedStep(p: seq<Event>, e: Event)
    requires e != LogCleared && FirstEnabled(p).None? && Replay(p).muted
    requires Replay(p).log == Writes(p[LogStart(p)..])
    ensures Replay(p + [e]).log == Writes((p + [e])[LogStart(p + [e])..])
  {
    ReplaySnoc(p, e);
    LogStartSnoc(p, e);
    assert p[LogStart(p)..] == [];
    assert (p + [e])[LogStart(p + [e])..] == [];
  }

  /** The step of `ReplayLog` for an event that does not clear the log,
      once the log is enabled. */
  lemma ReplayLoggingStep(p: seq<Event>, e: Event)
    requires e != LogCleared && FirstEnabled(p).Some? && !Replay(p).muted
    requires Replay(p).log == Writes(p[LogStart(p)..])
    ensures Replay(p + [e]).log == Writes((p + [e])[LogStart(p + [e])..])
  {
    ReplaySnoc(p, e);
    LogStartSnoc(p, e);
    var s := LogStart(p);
    assert (p + [e])[s..] == p[s..] + [e];
    WritesSnoc(p[s..], e);
  }

  /** The log holds exactly the bytes written after the first `enableLog`
      and after the last `clearLog`, in order; it stays muted until the
      first `enableLog`. So enabling never brings back earlier bytes, and
      clearing leaves only the bytes written afterwards. */
  lemma {:induction false} ReplayLog(evs: seq<Event>)
    ensures Replay(evs).log == Writes(evs[LogStart(evs)..])
    ensures Replay(evs).muted <==> forall i :: 0 <= i < |evs| ==> evs[i] != LogEnabled
    decreases |evs|
  {
    if evs != [] {
      var p := evs[..|evs| - 1];
      var e := evs[|evs| - 1];
      assert evs == p + [e];
      ReplayLog(p);
      ReplaySnoc(p, e);
      LogStartSnoc(p, e);
      if e == LogCleared {
        assert evs[LogStart(evs)..] == [];
      } else if FirstEnabled(p).None? {
        ReplayMutedStep(p, e);
      } else {
        ReplayLoggingStep(p, e);
      }
    }
  }

  /** `MuteableLogStream`. The ghost `events` records what happened to it,
      and `Valid` ties its state to `Replay(events)`. */
  class MuteableLogStream {
    const originalStream: OriginalStream
    var log: seq<byte>
    var logMuted: bool
    ghost var events: seq<Event>
    ghost const forwardedBefore: seq<byte>

    ghost predicate Valid()
      reads this, originalStream
    {
      log == Replay(events).log && logMuted == Replay(events).muted
      && originalStream.written == forwardedBefore + Writes(events)
    }

    constructor (originalStream: OriginalStream)
      ensures Valid() && this.originalStream == originalStream && events == []
      ensures log == [] && logMuted
      ensures forwardedBefore == originalStream.written
    {
      this.originalStream := originalStream;
      log := [];
      logMuted := true;
      events := [];
      forwardedBefore := originalStream.written;
    }

    /** `write(b)`: to the original stream always, to the log unless muted. */
    method Write(b: int)
      requires Valid()
      modifies this, originalStream
      ensures Valid() && events == old(events) + [Written(b)]
      ensures originalStream.written == old(originalStream.written) + [ToByte(b)]
      ensures log == if old(logMuted) then old(log) else old(log) + [ToByte(b)]
      ensures logMuted == old(logMuted)
      ensures originalStream.flushes == old(originalStream.flushes) && originalStream.closes == old(originalStream.closes)
    {
      originalStream.Write(b);
      if !logMuted {
        log := log + [ToByte(b)];
      }
      events := events + [Written(b)];
      WritesSnoc(old(events), Written(b));
      assert events[..|events| - 1] == old(events);
    }

    /** `flush()`: forwarded; the log is not touched. */
    method Flush()
      requires Valid()
      modifies this, originalStream
      ensures Valid() && events == old(events) + [Flushed]
      ensures log == old(log) && logMuted == old(logMuted)
      ensures originalStream.flushes == old(originalStream.flushes) + 1
      ensures originalStream.written == old(originalStream.written) && originalStream.closes == old(originalStream.closes)
    {
      originalStream.Flush();
      events := events + [Flushed];
      WritesSnoc(old(events), Flushed);
      assert events[..|events| - 1] == old(events);
    }

    /** `close()`: forwarded; the log is not touched. */
    method Close()
      requires Valid()
      modifies this, originalStream
      ensures Valid() && events == old(events) + [Closed]
      ensures log == old(log) && logMuted == old(logMuted)
      ensures originalStream.closes == old(originalStream.closes) + 1
      ensures originalStream.written == old(originalStream.written) && originalStream.flushes == old(originalStream.flushes)
    {
      originalStream.Close();
      events := events + [Closed];
      WritesSnoc(old(events), Closed);
      assert events[..|events| - 1] == old(events);
    }
  }

  class LogPrintStream {
    const muteableLogStream: MuteableLogStream

    /** `LogPrintStream(printStreamHandler)`: a muted, empty log in front of
        the handler's stream. */
    constructor (originalStream: OriginalStream)
      ensures fresh(muteableLogStream) && muteableLogStream.Valid()
      ensures muteableLogStream.originalStream == originalStream && muteableLogStream.events == []
      ensures muteableLogStream.forwardedBefore == originalStream.written
    {
      muteableLogStream := new MuteableLogStream(originalStream);
    }

    /** `clearLog()`: empties the log; the mute flag stays. */
    method ClearLog()
      requires muteableLogStream.Valid()
      modifies muteableLogStream
      ensures muteableLogStream.Valid() && muteableLogStream.events == old(muteableLogStream.events) + [LogCleared]
      ensures muteableLogStream.log == [] && muteableLogStream.logMuted == old(muteableLogStream.logMuted)
    {
      muteableLogStream.log := [];
      muteableLogStream.events := muteableLogStream.events + [LogCleared];
      WritesSnoc(old(muteableLogStream.events), LogCleared);
      assert muteableLogStream.events[..|muteableLogStream.events| - 1] == old(muteableLogStream.events);
    }

    /** `enableLog()`: later writes are logged; the log keeps what it has. */
    method EnableLog()
      requires muteableLogStream.Valid()
      modifies muteableLogStream
      ensures muteableLogStream.Valid() && muteableLogStream.events == old(muteableLogStream.events) + [LogEnabled]
      ensures !muteableLogStream.logMuted && muteableLogStream.log == old(muteableLogStream.log)
    {
      muteableLogStream.logMuted := false;
      muteableLogStream.events := muteableLogStream.events + [LogEnabled];
      WritesSnoc(old(muteableLogStream.events), LogEnabled);
      assert muteableLogStream.events[..|muteableLogStream.events| - 1] == old(muteableLogStream.events);
    }

    /** `getLog()`: the logged bytes decoded; by `ReplayLog`, the bytes
        written since the log was enabled and last cleared. */
    function GetLog(): (text: JString)
      reads this, muteableLogStream, muteableLogStream.originalStream
      requires muteableLogStream.Valid()
      ensures var evs := muteableLogStream.events; text == Decode(Writes(evs[LogStart(evs)..]))
    {
      ReplayLog(muteableLogStream.events);
      Decode(muteableLogStream.log)
    }

    /** `getLogWithNormalizedLineSeparator()`: the logged text with every
        separator replaced by `\n`; where the separator is `\n` already,
        the log itself. */
    function GetLogWithNormalizedLineSeparator(lineSeparator: JString): (text: JString)
      reads this, muteableLogStream, muteableLogStream.originalStream
      requires muteableLogStream.Valid()
      ensures var evs := muteableLogStream.events;
        text == Replace(Decode(Writes(evs[LogStart(evs)..])), lineSeparator, Str("\n"))
      ensures lineSeparator == Str("\n") ==> text == GetLog()
    {
      ReplaceBySelf(GetLog(), Str("\n"));
      Replace(GetLog(), lineSeparator, Str("\n"))
    }
  }
}

=== FILE: replacement_input.dfy ===
/** `SystemLambda.SystemInStub.ReplacementInputStream`: the stream installed
    as `System.in` by `withTextFromSystemIn`. It reads the characters of a
    fixed text, optionally throws a configured exception once the text is
    exhausted, and fills caller buffers one line at a time. */
module ReplacementInput {
  import opened Jvm

  /** The first `n` cells of `s` end with the separator: what
      `isCompleteLineWritten(buffer, n - 1)` tests. The cells are counted
      from index 0 of the buffer, whatever offset the read was given. */
  predicate LineCompleted(s: seq<byte>, n: nat, separator: seq<byte>)
  {
    n <= |s| && |separator| <= n && s[n - |separator|..n] == separator
  }

  /** Whether a line is completed in the first `n` cells depends on those cells only. */
  lemma LineCompletedDependsOnPrefix(s: seq<byte>, t: seq<byte>, n: nat, separator: seq<byte>)
    requires n <= |s| && n <= |t| && s[..n] == t[..n]
    ensures LineCompleted(s, n, separator) == LineCompleted(t, n, separator)
  {
    if |separator| <= n {
      assert s[n - |separator|..n] == s[..n][n - |separator|..];
      assert t[n - |separator|..n] == t[..n][n - |separator|..];
    }
  }

  class ReplacementInputStream {
    /** The text behind the `StringReader`, and the reader's position in it. */
    const text: JString
    var position: nat
    const ioException: Option<nat>
    const runtimeException: Option<nat>

    ghost predicate Valid()
      reads this
    {
      position <= |text|
    }

    constructor (text: JString, ioException: Option<nat>, runtimeException: Option<nat>)
      ensures Valid() && position == 0
      ensures this.text == text && this.ioException == ioException && this.runtimeException == runtimeException
    {
      this.text := text;
      this.ioException := ioException;
      this.runtimeException := runtimeException;
      position := 0;
    }

    /** `read()` once the text is exhausted (`handleEmptyReader`): the
        IOException if configured, else the RuntimeException if configured,
        else -1. */
    function AtEnd(): (r: Outcome<int>)
      ensures r == Value(-1) <==> ioException.None? && runtimeException.None?
      ensures ioException.Some? ==> r == Thrown(IOException(ioException.value))
      ensures ioException.None? && runtimeException.Some? ==> r == Thrown(RuntimeException(runtimeException.value))
    {
      if ioException.Some? then Thrown(IOException(ioException.value))
      else if runtimeException.Some? then Thrown(RuntimeException(runtimeException.value))
      else Value(-1)
    }

    /** `read()`: the next UTF-16 code unit of the text, not masked to a
        byte; at the end, `AtEnd()` on every call, without moving. */
    method Read() returns (r: Outcome<int>)
      requires Valid()
      modifies this
      ensures Valid()
      ensures old(position) < |text| ==> r == Value(text[old(position)] as int) && position == old(position) + 1
      ensures old(position) == |text| ==> r == AtEnd() && position == old(position)
    {
      if position < |text| {
        r := Value(text[position] as int);
        position := position + 1;
      } else {
        r := AtEnd();
      }
    }

    /** The cells `offset .. offset + k` of `b` hold the low bytes of the
        `k` characters from `from` on; every other cell is as in `b0`. */
    ghost predicate Filled(b0: seq<byte>, b: seq<byte>, offset: nat, k: nat, from: nat)
    {
      && |b| == |b0| && offset + k <= |b| && from + k <= |text|
      && (forall i :: 0 <= i < |b| && !(offset <= i < offset + k) ==> b[i] == b0[i])
      && (forall i :: offset <= i < offset + k ==> b[i] == ToByte(text[from + (i - offset)] as int))
    }

    /** `readNextLine` stored `k` bytes, from the character at `p0` on, and
        then stopped: `len` bytes are stored, a line is complete, or a byte
        read as -1. */
    ghost predicate StoppedAfter(p0: nat, b0: seq<byte>, offset: nat, len: nat, separator: seq<byte>,
                                 p: nat, b: seq<byte>, k: int)
    {
      && 1 <= k <= len && p0 + k <= |text|
      && Filled(b0, b, offset, k, p0)
      // Every byte after the first was not -1, and no earlier line was complete.
      && (forall q :: p0 < q < p0 + k ==> ToByte(text[q] as int) != -1)
      && (forall j :: 1 <= j < k ==> !LineCompleted(b, j, separator))
      && (if k < len && !LineCompleted(b, k, separator) then
            // Stopped by a byte that reads as -1: a character whose low
            // byte is 0xFF (consumed, not stored), or the end of the text.
            (p0 + k < |text| && ToByte(text[p0 + k] as int) == -1 && p == p0 + k + 1)
            || (p0 + k == |text| && AtEnd() == Value(-1) && p == p0 + k)
          else p == p0 + k)
    }

    /** `readNextLine` reached the end of the text inside its loop with an
        exception configured: the exception propagates and the bytes stored
        so far stay. */
    ghost predicate ThrownAtEnd(p0: nat, b0: seq<byte>, offset: nat, len: nat, separator: seq<byte>,
                                p: nat, b: seq<byte>, r: Outcome<int>)
    {
      var n := |text| - p0;
      && r == AtEnd() && r.Thrown? && p == |text| && 1 <= n < len
      && Filled(b0, b, offset, n, p0)
      && (forall q :: p0 < q < |text| ==> ToByte(text[q] as int) != -1)
      && (forall j :: 1 <= j <= n ==> !LineCompleted(b, j, separator))
    }

    /** What `readNextLine(buffer, offset, len)` does, from reader position
        `p0` and buffer contents `b0` to position `p`, contents `b` and result `r`. */
    ghost predicate LineRead(p0: nat, b0: seq<byte>, offset: nat, len: nat, separator: seq<byte>,
                             p: nat, b: seq<byte>, r: Outcome<int>)
    {
      if p0 >= |text| then
        // Nothing left: the first read reports the end (-1 or an exception).
        r == AtEnd() && p == p0 && b == b0
      else if r.Value? then StoppedAfter(p0, b0, offset, len, separator, p, b, r.value)
      else ThrownAtEnd(p0, b0, offset, len, separator, p, b, r)
    }

    /** `read(buffer, offset, len)`: argument checks, then one line. */
    method ReadInto(buffer: array?<byte>, offset: int, len: int, separator: seq<byte>) returns (r: Outcome<int>)
      requires Valid()
      modifies this, buffer
      ensures Valid()
      ensures buffer == null ==> r == Thrown(NullPointerException) && position == old(position)
      ensures buffer != null && (offset < 0 || len < 0 || len > buffer.Length - offset) ==>
        r == Thrown(IndexOutOfBoundsException) && position == old(position) && buffer[..] == old(buffer[..])
      ensures buffer != null && 0 <= offset && len == 0 && offset <= buffer.Length ==>
        r == Value(0) && position == old(position) && buffer[..] == old(buffer[..])
      ensures buffer != null && 0 <= offset && 0 < len <= buffer.Length - offset ==>
        LineRead(old(position), old(buffer[..]), offset, len, separator, position, buffer[..], r)
    {
      if buffer == null {
        r := Thrown(NullPointerException);
      } else if offset < 0 || len < 0 || len > buffer.Length - offset {
        r := Thrown(IndexOutOfBoundsException);
      } else if len == 0 {
        r := Value(0);
      } else {
        r := ReadNextLine(buffer, offset, len, separator);
      }
    }

    /** Storing the next character's byte after `k` stored bytes, none of
        which completed a line, extends what is filled by one byte. */
    lemma StoreExtendsLine(b0: seq<byte>, before: seq<byte>, after: seq<byte>, offset: nat, k: nat,
                           p0: nat, separator: seq<byte>)
      requires Filled(b0, before, offset, k, p0) && p0 + k < |text| && offset + k < |before|
      requires after == before[offset + k := ToByte(text[p0 + k] as int)]
      requires forall j :: 1 <= j <= k ==> !LineCompleted(before, j, separator)
      ensures Filled(b0, after, offset, k + 1, p0)
      ensures forall j :: 1 <= j < k + 1 ==> !LineCompleted(after, j, separator)
    {
      forall j | 1 <= j <= k
        ensures !LineCompleted(after, j, separator)
      {
        assert after[..j] == before[..j];
        LineCompletedDependsOnPrefix(after, before, j, separator);
      }
    }

    /** `readNextLine`: reads characters into the buffer until `len` bytes are
        stored, a complete separator ends the cells counted from index 0, a
        byte reads as -1, or the end of the text throws. */
    method ReadNextLine(buffer: array<byte>, offset: nat, len: nat, separator: seq<byte>) returns (r: Outcome<int>)
      requires Valid() && 1 <= len && offset + len <= buffer.Length
      modifies this, buffer
      ensures Valid()
      ensures LineRead(old(position), old(buffer[..]), offset, len, separator, position, buffer[..], r)
    {
      var c := Read();
      if !c.Value? {
        return c;
      }
      if c.value == -1 {
        return Value(-1);
      }
      buffer[offset] := ToByte(c.value);
      r := ReadRestOfLine(buffer, offset, len, separator, old(position), old(buffer[..]));
    }

    /** The loop of `readNextLine`, after the first byte is stored at `offset`. */
    method ReadRestOfLine(buffer: array<byte>, offset: nat, len: nat, separator: seq<byte>,
                          ghost p0: nat, ghost b0: seq<byte>) returns (r: Outcome<int>)
      requires Valid() && 1 <= len && offset + len <= buffer.Length
      requires p0 < |text| && position == p0 + 1 && Filled(b0, buffer[..], offset, 1, p0)
      modifies this, buffer
      ensures Valid()
      ensures r.Value? ==> StoppedAfter(p0, b0, offset, len, separator, position, buffer[..], r.value)
      ensures !r.Value? ==> ThrownAtEnd(p0, b0, offset, len, separator, position, buffer[..], r)
    {
      var i := 1;
      while i < len
        invariant 1 <= i <= len && Valid()
        invariant position == p0 + i
        invariant Filled(b0, buffer[..], offset, i, p0)
        invariant forall q :: p0 < q < p0 + i ==> ToByte(text[q] as int) != -1
        invariant forall j :: 1 <= j < i ==> !LineCompleted(buffer[..], j, separator)
      {
        var complete := IsCompleteLineWritten(buffer, i - 1, separator);
        if complete {
          break;
        }
        var v := Read();
        if !v.Value? {
          return v;
        }
        var read := ToByte(v.value);
        if read == -1 {
          break;
        }
        assert v.value == text[p0 + i] as int by {
          assert ToByte(-1) == -1;
        }
        ghost var before := buffer[..];
        buffer[offset + i] := read;
        StoreExtendsLine(b0, before, buffer[..], offset, i, p0, separator);
        i := i + 1;
      }
      r := Value(i);
    }

    /** `isCompleteLineWritten(buffer, indexLastByteWritten)`. */
    static method IsCompleteLineWritten(buffer: array<byte>, indexLastByteWritten: nat, separator: seq<byte>)
      returns (complete: bool)
      requires indexLastByteWritten < buffer.Length
      ensures complete == LineCompleted(buffer[..], indexLastByteWritten + 1, separator)
    {
      var indexFirstByteOfSeparator := indexLastByteWritten - |separator| + 1;
      if indexFirstByteOfSeparator >= 0 {
        complete := Contains(buffer, separator, indexFirstByteOfSeparator);
      } else {
        complete := false;
      }
    }

    /** `contains(array, pattern, indexStart)`: the pattern occurs at `indexStart`. */
    static method Contains(buffer: array<byte>, pattern: seq<byte>, indexStart: nat) returns (found: bool)
      requires indexStart + |pattern| <= buffer.Length
      ensures found <==> buffer[indexStart..indexStart + |pattern|] == pattern
    {
      var i := 0;
      while i < |pattern|
        invariant 0 <= i <= |pattern|
        invariant buffer[indexStart..indexStart + i] == pattern[..i]
      {
        if buffer[indexStart + i] != pattern[i] {
          assert buffer[indexStart..indexStart + |pattern|][i] != pattern[i];
          return false;
        }
        i := i + 1;
      }
      return true;
    }
  }
}

=== FILE: sinks.dfy ===
/** The output streams that `SystemLambda` installs as `System.err` or
    `System.out`: a recording tap, a stream that drops everything and a
    stream that refuses every byte. */
module Sinks {
  import opened Jvm

  /** `TapStream`: every byte written is appended to an in-memory buffer. */
  class TapStream {
    var written: seq<byte>

    constructor ()
      ensures written == []
    {
      written := [];
    }

    /** `write(int b)`: the buffer keeps the low byte of `b`. */
    method Write(b: int)
      modifies this
      ensures written == old(written) + [ToByte(b)]
    {
      written := written + [ToByte(b)];
    }

    /** `textThatWasWritten()`: the buffer decoded with the default charset. */
    function TextThatWasWritten(): (text: JString)
      reads this
      ensures |text| == |written|
    {
      Decode(written)
    }
  }

  /** What `System.err` or `System.out` currently writes to. `External`
      stands for any print stream outside the library (the console, or a
      stream installed by the code under test). */
  datatype Sink = External(id: nat) | Noop | Disallow | Tap(stream: TapStream)

  const DisallowPrefix: JString := Str("Tried to write '")
  const DisallowSuffix: JString := Str("' although this is not allowed.")

  /** The message of the `AssertionError` thrown by `DisallowWriteStream.write(b)`:
      it quotes the character `(char) b`. */
  function DisallowMessage(b: int): (message: JString)
    ensures |message| == |DisallowPrefix| + 1 + |DisallowSuffix|
    ensures message[..|DisallowPrefix|] == DisallowPrefix
    ensures message[|DisallowPrefix|] == ToChar(b)
    ensures message[|DisallowPrefix| + 1..] == DisallowSuffix
  {
    DisallowPrefix + [ToChar(b)] + DisallowSuffix
  }

  /** Two writes are reported with the same message exactly when they write
      the same character. */
  lemma DisallowMessageIdentifiesCharacter(b1: int, b2: int)
    ensures DisallowMessage(b1) == DisallowMessage(b2) <==> ToChar(b1) == ToChar(b2)
  {
    if DisallowMessage(b1) == DisallowMessage(b2) {
      assert DisallowMessage(b1)[|DisallowPrefix|] == DisallowMessage(b2)[|DisallowPrefix|];
    }
  }
}

=== FILE: statements.dfy ===
/** Facts about running test code (`Run`) under the replacements that the
    library installs: a tap sees exactly the bytes written to its slot, a
    muted slot drops them, a disallowing slot fails the statement at the
    first write, and an intercepting security manager remembers the status
    of the first call to `System.exit`. */
module Statements {
  import opened Jvm
  import opened Sinks
  import opened Exit
  import opened Ambient

  /** The two output slots, `System.err` and `System.out`. */
  datatype OutputSlot = ErrSlot | OutSlot

  function SinkAt(s: Slots, slot: OutputSlot): Sink
  {
    if slot.ErrSlot? then s.err else s.out
  }

  /** The action is a write to the slot (not one inside `Swallow`). */
  predicate WritesTo(a: Action, slot: OutputSlot)
  {
    (a.WriteErr? && slot.ErrSlot?) || (a.WriteOut? && slot.OutSlot?)
  }

  /** The action installs another stream in the slot. */
  predicate Replaces(a: Action, slot: OutputSlot)
  {
    match a
    case SetErr(_) => slot.ErrSlot?
    case SetOut(_) => slot.OutSlot?
    case Swallow(inner) => Replaces(inner, slot)
    case _ => false
  }

  /** The statement leaves the stream in the slot as it finds it. */
  predicate Keeps(stmt: Statement, slot: OutputSlot)
  {
    forall i :: 0 <= i < |stmt| ==> !Replaces(stmt[i], slot)
  }

  predicate ReplacesManager(a: Action)
  {
    match a
    case SetSecurityManager(_) => true
    case Swallow(inner) => ReplacesManager(inner)
    case _ => false
  }

  /** The statement leaves the security manager as it finds it. */
  predicate KeepsManager(stmt: Statement)
  {
    forall i :: 0 <= i < |stmt| ==> !ReplacesManager(stmt[i])
  }

  lemma {:induction false} StepKeeps(s: Slots, a: Action)
    ensures forall slot :: !Replaces(a, slot) ==> SinkAt(Step(s, a).slots, slot) == SinkAt(s, slot)
    ensures !ReplacesManager(a) ==> Step(s, a).slots.securityManager == s.securityManager
  {
    if a.Swallow? {
      StepKeeps(s, a.action);
    }
  }

  /** A statement that does not replace a slot ends with the slot as it began. */
  lemma {:induction false} RunKeeps(s: Slots, stmt: Statement)
    ensures forall slot :: Keeps(stmt, slot) ==> SinkAt(Run(s, stmt).slots, slot) == SinkAt(s, slot)
    ensures KeepsManager(stmt) ==> Run(s, stmt).slots.securityManager == s.securityManager
    decreases |stmt|
  {
    if stmt != [] {
      StepKeeps(s, stmt[0]);
      var first := Step(s, stmt[0]);
      if first.completion.Normal? {
        RunKeeps(first.slots, stmt[1..]);
        forall slot | Keeps(stmt, slot)
          ensures Keeps(stmt[1..], slot)
        {
          assert forall i :: 0 <= i < |stmt[1..]| ==> stmt[1..][i] == stmt[i + 1];
        }
        assert KeepsManager(stmt) ==> KeepsManager(stmt[1..]) by {
          assert forall i :: 0 <= i < |stmt[1..]| ==> stmt[1..][i] == stmt[i + 1];
        }
      }
    }
  }

  /** Running two statements one after the other: the second runs only if
      the first completes normally, and the traces are concatenated. */
  lemma {:induction false} RunAppend(s: Slots, a: Statement, b: Statement)
    ensures var ra := Run(s, a);
      Run(s, a + b) == if ra.completion.Normal? then Prepend(ra.trace, Run(ra.slots, b)) else ra
    decreases |a|
  {
    if a == [] {
      assert a + b == b;
    } else {
      assert (a + b)[0] == a[0] && (a + b)[1..] == a[1..] + b;
      var first := Step(s, a[0]);
      if first.completion.Normal? {
        RunAppend(first.slots, a[1..], b);
        var rest := Run(first.slots, a[1..]);
        if rest.completion.Normal? {
          assert [first.effect] + (rest.trace + Run(rest.slots, b).trace)
              == ([first.effect] + rest.trace) + Run(rest.slots, b).trace;
        }
      }
    }
  }

  /** The statement stops at the first action that does not complete normally. */
  lemma RunStopsAt(s: Slots, stmt: Statement, k: nat)
    requires k < |stmt|
    requires Run(s, stmt[..k]).completion.Normal?
    requires !Step(Run(s, stmt[..k]).slots, stmt[k]).completion.Normal?
    ensures var pre := Run(s, stmt[..k]); var last := Step(pre.slots, stmt[k]);
      Run(s, stmt) == RunResult(last.slots, pre.trace + [last.effect], last.completion)
  {
    assert stmt == stmt[..k] + stmt[k..];
    RunAppend(s, stmt[..k], stmt[k..]);
    RunCons(Run(s, stmt[..k]).slots, stmt[k..]);
  }

  // ---------------------------------------------------------------------
  // Taps

  /** The bytes of the action that reach a tap installed in `System.err`
      (when `err`) and in `System.out` (when `out`). */
  function CapturedOf(a: Action, err: bool, out: bool): seq<byte>
  {
    match a
    case WriteErr(b) => if err then [ToByte(b)] else []
    case WriteOut(b) => if out then [ToByte(b)] else []
    case Swallow(inner) => CapturedOf(inner, err, out)
    case _ => []
  }

  function Captured(stmt: Statement, err: bool, out: bool): seq<byte>
  {
    if stmt == [] then [] else CapturedOf(stmt[0], err, out) + Captured(stmt[1..], err, out)
  }

  /** The bytes that the actions write to `System.err`, in order. */
  function ErrBytes(stmt: Statement): seq<byte>
  {
    Captured(stmt, true, false)
  }

  /** The bytes that the actions write to `System.out`, in order. */
  function OutBytes(stmt: Statement): seq<byte>
  {
    Captured(stmt, false, true)
  }

  /** The bytes that the actions write to either stream, interleaved in the
      order of writing. */
  function AllBytes(stmt: Statement): seq<byte>
  {
    Captured(stmt, true, true)
  }

  /** Tap `t` is installed in exactly the slots that `err` and `out` name. */
  predicate TapIn(s: Slots, t: TapStream, err: bool, out: bool)
  {
    (s.err == Tap(t)) == err && (s.out == Tap(t)) == out
  }

  /** No action replaces a slot that holds the tap. */
  predicate KeepsTapped(stmt: Statement, err: bool, out: bool)
  {
    (err ==> Keeps(stmt, ErrSlot)) && (out ==> Keeps(stmt, OutSlot))
  }

  lemma {:induction false} StepCaptures(s: Slots, a: Action, t: TapStream, err: bool, out: bool)
    requires TapIn(s, t, err, out)
    requires (err ==> !Replaces(a, ErrSlot)) && (out ==> !Replaces(a, OutSlot))
    ensures TapIn(Step(s, a).slots, t, err, out)
    ensures TapBytesOf(Step(s, a).effect, t) == CapturedOf(a, err, out)
  {
    StepKeeps(s, a);
    if a.Swallow? {
      StepCaptures(s, a.action, t, err, out);
    }
  }

  /** A tap sees exactly the bytes that the actions which ran wrote to the
      slots it is installed in, in the order they were written. */
  lemma {:induction false} RunCaptures(s: Slots, stmt: Statement, t: TapStream, err: bool, out: bool)
    requires TapIn(s, t, err, out) && KeepsTapped(stmt, err, out)
    ensures var r := Run(s, stmt); TapBytes(r.trace, t) == Captured(stmt[..|r.trace|], err, out)
    decreases |stmt|
  {
    if stmt != [] {
      StepCaptures(s, stmt[0], t, err, out);
      var first := Step(s, stmt[0]);
      TraceCons(first.effect, [], map[]);
      assert stmt[..1][1..] == [];
      if first.completion.Normal? {
        assert KeepsTapped(stmt[1..], err, out) by {
          assert forall i :: 0 <= i < |stmt[1..]| ==> stmt[1..][i] == stmt[i + 1];
        }
        RunCaptures(first.slots, stmt[1..], t, err, out);
        var rest := Run(first.slots, stmt[1..]);
        TraceCons(first.effect, rest.trace, map[]);
        assert stmt[..1 + |rest.trace|][1..] == stmt[1..][..|rest.trace|];
      }
    }
  }

  // ---------------------------------------------------------------------
  // Muted slots

  /** The statement without its writes to the slot. */
  function WithoutWrites(stmt: Statement, slot: OutputSlot): (r: Statement)
    ensures |r| <= |stmt|
    ensures forall i :: 0 <= i < |r| ==> !WritesTo(r[i], slot)
  {
    if stmt == [] then []
    else if WritesTo(stmt[0], slot) then WithoutWrites(stmt[1..], slot)
    else [stmt[0]] + WithoutWrites(stmt[1..], slot)
  }

  /** The effects of a trace other than `NoEffect`. */
  function Effects(trace: seq<Effect>): (r: seq<Effect>)
    ensures forall i :: 0 <= i < |r| ==> !r[i].NoEffect?
  {
    if trace == [] then [] else (if trace[0].NoEffect? then [] else [trace[0]]) + Effects(trace[1..])
  }

  lemma EffectsCons(e: Effect, trace: seq<Effect>)
    ensures Effects([e] + trace) == (if e.NoEffect? then [] else [e]) + Effects(trace)
  {
    assert ([e] + trace)[0] == e && ([e] + trace)[1..] == trace;
  }

  /** Writing to a muted slot does nothing: the statement completes, ends in
      the same state and has the same effects as without those writes. */
  lemma {:induction false} MutedWritesAreDropped(s: Slots, stmt: Statement, slot: OutputSlot)
    requires SinkAt(s, slot) == Noop && Keeps(stmt, slot)
    ensures var r := Run(s, stmt); var quiet := Run(s, WithoutWrites(stmt, slot));
      r.completion == quiet.completion && r.slots == quiet.slots && Effects(r.trace) == Effects(quiet.trace)
    decreases |stmt|
  {
    if stmt != [] {
      assert Keeps(stmt[1..], slot) by {
        assert forall i :: 0 <= i < |stmt[1..]| ==> stmt[1..][i] == stmt[i + 1];
      }
      StepKeeps(s, stmt[0]);
      var first := Step(s, stmt[0]);
      if WritesTo(stmt[0], slot) {
        MutedWritesAreDropped(s, stmt[1..], slot);
        EffectsCons(first.effect, Run(s, stmt[1..]).trace);
      } else {
        var w := WithoutWrites(stmt, slot);
        assert w[0] == stmt[0] && w[1..] == WithoutWrites(stmt[1..], slot);
        if first.completion.Normal? {
          MutedWritesAreDropped(first.slots, stmt[1..], slot);
          EffectsCons(first.effect, Run(first.slots, stmt[1..]).trace);
          EffectsCons(first.effect, Run(first.slots, w[1..]).trace);
        }
      }
    }
  }

  // ---------------------------------------------------------------------
  // Disallowing slots

  /** The first write to a disallowing slot fails the statement with an
      `AssertionError` that names the byte, and nothing after it runs. */
  lemma DisallowedWriteFails(s: Slots, stmt: Statement, slot: OutputSlot, k: nat)
    requires SinkAt(s, slot) == Disallow && k < |stmt| && WritesTo(stmt[k], slot)
    requires Keeps(stmt[..k], slot) && Run(s, stmt[..k]).completion.Normal?
    ensures Run(s, stmt).completion == Abrupt(AssertionError(DisallowMessage(stmt[k].b)))
    ensures |Run(s, stmt).trace| == k + 1
  {
    RunKeeps(s, stmt[..k]);
    RunStopsAt(s, stmt, k);
  }

  /** A statement that completes normally with a disallowing slot does not
      write to it (other than inside a `Swallow` that discards the failure). */
  lemma {:induction false} DisallowedRunWritesNothing(s: Slots, stmt: Statement, slot: OutputSlot)
    requires SinkAt(s, slot) == Disallow && Keeps(stmt, slot)
    requires Run(s, stmt).completion.Normal?
    ensures forall i :: 0 <= i < |stmt| ==> !WritesTo(stmt[i], slot)
    decreases |stmt|
  {
    if stmt != [] {
      StepKeeps(s, stmt[0]);
      var first := Step(s, stmt[0]);
      assert Keeps(stmt[1..], slot) by {
        assert forall i :: 0 <= i < |stmt[1..]| ==> stmt[1..][i] == stmt[i + 1];
      }
      DisallowedRunWritesNothing(first.slots, stmt[1..], slot);
      assert forall i :: 1 <= i < |stmt| ==> stmt[i] == stmt[1..][i - 1];
    }
  }

  // ---------------------------------------------------------------------
  // System.exit

  /** The status of the action's call to `System.exit`, if it makes one. */
  function ExitOf(a: Action): Option<int>
  {
    match a
    case CallExit(status) => Some(status)
    case Swallow(inner) => ExitOf(inner)
    case _ => None
  }

  /** The status of the first call to `System.exit` among the actions. */
  function FirstExit(stmt: Statement): (r: Option<int>)
    ensures r.None? <==> forall i :: 0 <= i < |stmt| ==> ExitOf(stmt[i]).None?
  {
    if stmt == [] then None
    else if ExitOf(stmt[0]).Some? then ExitOf(stmt[0])
    else
      var rest := FirstExit(stmt[1..]);
      assert forall i :: 1 <= i < |stmt| ==> stmt[i] == stmt[1..][i - 1];
      rest
  }

  lemma {:induction false} StepRecordsExit(s: Slots, a: Action, m: NoExitSecurityManager, status: Option<int>)
    requires s.securityManager == Intercepting(m)
    ensures ExitStatusAfterEffect(status, Step(s, a).effect, m) == if status.Some? then status else ExitOf(a)
    ensures ExitOf(a).Some? && !a.Swallow? ==> Step(s, a).completion == Abrupt(CheckExitCalled)
  {
    if a.Swallow? {
      StepRecordsExit(s, a.action, m, status);
    }
  }

  lemma {:induction false} StatusStays(status: int, trace: seq<Effect>, m: NoExitSecurityManager)
    ensures ExitStatusAfter(Some(status), trace, m) == Some(status)
    decreases |trace|
  {
    if trace != [] {
      StatusStays(status, trace[1..], m);
    }
  }

  /** An intercepting manager ends up with the status of the first call to
      `System.exit` among the actions that ran; later calls do not change it. */
  lemma {:induction false} RunRecordsFirstExit(s: Slots, stmt: Statement, m: NoExitSecurityManager)
    requires s.securityManager == Intercepting(m) && KeepsManager(stmt)
    ensures var r := Run(s, stmt); ExitStatusAfter(None, r.trace, m) == FirstExit(stmt[..|r.trace|])
    decreases |stmt|
  {
    if stmt != [] {
      StepKeeps(s, stmt[0]);
      StepRecordsExit(s, stmt[0], m, None);
      var first := Step(s, stmt[0]);
      assert stmt[..1][1..] == [];
      if first.completion.Normal? {
        assert KeepsManager(stmt[1..]) by {
          assert forall i :: 0 <= i < |stmt[1..]| ==> stmt[1..][i] == stmt[i + 1];
        }
        RunRecordsFirstExit(first.slots, stmt[1..], m);
        var rest := Run(first.slots, stmt[1..]);
        TraceCons(first.effect, rest.trace, map[]);
        assert stmt[..1 + |rest.trace|][1..] == stmt[1..][..|rest.trace|];
        if ExitOf(stmt[0]).Some? {
          StatusStays(ExitOf(stmt[0]).value, rest.trace, m);
        }
      } else {
        TraceCons(first.effect, [], map[]);
      }
    }
  }

  /** A call to `System.exit` that is not inside `Swallow` ends the
      statement with `CheckExitCalled`, and the manager holds the status of
      the first call made up to there. */
  lemma ExitEndsStatement(s: Slots, stmt: Statement, m: NoExitSecurityManager, k: nat)
    requires s.securityManager == Intercepting(m) && KeepsManager(stmt)
    requires k < |stmt| && stmt[k].CallExit? && Run(s, stmt[..k]).completion.Normal?
    ensures Run(s, stmt).completion == Abrupt(CheckExitCalled)
    ensures |Run(s, stmt).trace| == k + 1
    ensures ExitStatusAfter(None, Run(s, stmt).trace, m) == FirstExit(stmt[..k + 1]) != None
  {
    assert KeepsManager(stmt[..k]) by {
      assert forall i :: 0 <= i < k ==> stmt[..k][i] == stmt[i];
    }
    RunKeeps(s, stmt[..k]);
    StepRecordsExit(Run(s, stmt[..k]).slots, stmt[k], m, None);
    RunStopsAt(s, stmt, k);
    RunRecordsFirstExit(s, stmt, m);
    assert stmt[..k + 1][k] == stmt[k];
  }
}

=== FILE: stubs_env.dfy ===
/** system-stubs' `EnvironmentVariables`: a mutable set of overrides that is
    applied to the environment on setup and undone on teardown. Whether the
    object is between setup and teardown (`isActive()` of its base class
    `SingularTestResource`) is the field `active`. */
module StubsEnvironment {
  import opened Jvm
  import opened Ambient
  import opened EnvOverrides

  const OddParametersMessage: JString := Str("Must provide even number of parameters")

  /** The overrides after putting the pairs `others[0] := others[1]`,
      `others[2] := others[3]`, ... into `m`, in order. */
  function PutPairs(m: Overrides, others: seq<Option<JString>>): Overrides
    requires |others| % 2 == 0
    requires forall i :: 0 <= i < |others| && i % 2 == 0 ==> others[i].Some?
    decreases |others|
  {
    if others == [] then m
    else PutPairs(m[others[0].value := others[1]], others[2..])
  }

  /** The pair `j` names `name`, and no later pair does. */
  predicate LastPairFor(others: seq<Option<JString>>, name: JString, j: nat)
  {
    j % 2 == 0 && j + 1 < |others| && others[j] == Some(name)
    && forall i :: j < i < |others| && i % 2 == 0 ==> others[i] != Some(name)
  }

  /** A name takes the value of its last pair: a later duplicate overwrites an earlier one. */
  lemma {:induction false} LastPairWins(m: Overrides, others: seq<Option<JString>>, name: JString, j: nat)
    requires |others| % 2 == 0
    requires forall i :: 0 <= i < |others| && i % 2 == 0 ==> others[i].Some?
    requires LastPairFor(others, name, j)
    ensures name in PutPairs(m, others) && PutPairs(m, others)[name] == others[j + 1]
    decreases |others|
  {
    var rest := others[2..];
    assert forall i :: 0 <= i < |rest| && i % 2 == 0 ==> rest[i] == others[i + 2];
    if j == 0 {
      NoPairKeeps(m[name := others[1]], rest, name);
    } else {
      assert LastPairFor(rest, name, j - 2) by {
        assert forall i :: j - 2 < i < |rest| && i % 2 == 0 ==> rest[i] == others[i + 2];
      }
      LastPairWins(m[others[0].value := others[1]], rest, name, j - 2);
    }
  }

  /** A name that no pair mentions keeps its entry in `m`, or its absence. */
  lemma {:induction false} NoPairKeeps(m: Overrides, others: seq<Option<JString>>, name: JString)
    requires |others| % 2 == 0
    requires forall i :: 0 <= i < |others| && i % 2 == 0 ==> others[i].Some?
    requires forall i :: 0 <= i < |others| && i % 2 == 0 ==> others[i] != Some(name)
    ensures name in PutPairs(m, others) <==> name in m
    ensures name in m ==> PutPairs(m, others)[name] == m[name]
    decreases |others|
  {
    if others != [] {
      var rest := others[2..];
      assert forall i :: 0 <= i < |rest| && i % 2 == 0 ==> rest[i] == others[i + 2];
      NoPairKeeps(m[others[0].value := others[1]], rest, name);
    }
  }

  /** Re-applying all overrides after `set(name, value)` leaves the
      environment as if the new set had been applied from the start. */
  lemma {:induction false} SetWhileActiveAsFromStart(env: Env, vars: Overrides, name: JString, value: Option<JString>)
    ensures Overridden(Overridden(env, vars), vars[name := value]) == Overridden(env, vars[name := value])
  {
    var later := Overridden(Overridden(env, vars), vars[name := value]);
    var direct := Overridden(env, vars[name := value]);
    assert forall n :: n in later <==> n in direct;
    assert forall n :: n in later ==> later[n] == direct[n];
  }

  class EnvironmentVariables {
    var variables: Overrides
    var originalEnvironment: Option<Env>
    var active: bool

    /** `EnvironmentVariables()`: no overrides. */
    constructor Empty()
      ensures variables == map[] && originalEnvironment.None? && !active
    {
      variables := map[];
      originalEnvironment := None;
      active := false;
    }

    /** `EnvironmentVariables(Map)`: a copy of the map; changing the
        argument afterwards does not change the object. */
    constructor FromMap(variables: Overrides)
      ensures this.variables == variables && originalEnvironment.None? && !active
    {
      this.variables := variables;
      originalEnvironment := None;
      active := false;
    }

    /** `EnvironmentVariables(name, value, others...)`: `others` alternates
        names and values; an odd count is refused. */
    static method FromPairs(name: JString, value: Option<JString>, others: seq<Option<JString>>)
      returns (r: Outcome<EnvironmentVariables>)
      requires forall i :: 0 <= i < |others| && i % 2 == 0 ==> others[i].Some?
      ensures r.Thrown? <==> |others| % 2 != 0
      ensures r.Thrown? ==> r.exception == IllegalArgumentException(OddParametersMessage)
      ensures r.Value? ==> fresh(r.value) && !r.value.active && r.value.originalEnvironment.None?
      ensures r.Value? ==> r.value.variables == PutPairs(map[name := value], others)
      ensures !r.Halted?
    {
      if |others| % 2 != 0 {
        return Thrown(IllegalArgumentException(OddParametersMessage));
      }
      var result := new EnvironmentVariables.Empty();
      result.Put(name, value);
      var i := 0;
      while i < |others|
        invariant 0 <= i <= |others| && i % 2 == 0
        invariant !result.active && result.originalEnvironment.None?
        invariant PutPairs(result.variables, others[i..]) == PutPairs(map[name := value], others)
      {
        assert others[i..][2..] == others[i + 2..];
        result.Put(others[i].value, others[i + 1]);
        i := i + 2;
      }
      r := Value(result);
    }

    /** `variables.put(name, value)`. */
    method Put(name: JString, value: Option<JString>)
      modifies this
      ensures variables == old(variables)[name := value]
      ensures active == old(active) && originalEnvironment == old(originalEnvironment)
    {
      variables := variables[name := value];
    }

    /** `and(name, value)`: a new, inactive object with one more entry; the
        receiver is unchanged, and a name present already is refused. */
    method And(name: JString, value: Option<JString>) returns (r: Outcome<EnvironmentVariables>)
      ensures r.Thrown? <==> name in variables
      ensures r.Thrown? ==> r.exception == IllegalArgumentException(DuplicateMessage(name, value, variables[name]))
      ensures r.Value? ==> fresh(r.value) && !r.value.active && r.value.originalEnvironment.None?
      ensures r.Value? ==> r.value.variables == variables[name := value]
      ensures !r.Halted?
    {
      var thrown := ValidateNotSet(variables, name, value);
      if thrown.Some? {
        return Thrown(thrown.value);
      }
      var copy := new EnvironmentVariables.FromMap(variables);
      // `set` on an object that is not active only records the value.
      copy.Put(name, value);
      r := Value(copy);
    }

    /** `set(name, value)`: records the value and, while active, applies
        all overrides again. */
    method Set(amb: Ambient, name: JString, value: Option<JString>) returns (r: EnvironmentVariables)
      modifies this, amb
      ensures r == this && variables == old(variables)[name := value]
      ensures active == old(active) && originalEnvironment == old(originalEnvironment)
      ensures !active ==> amb.Current() == old(amb.Current())
      ensures active ==> amb.Current() == old(amb.Current()).(
        env := Overridden(old(amb.env), variables),
        ciEnv := if old(amb.ciEnv).None? then None else Some(Overridden(old(amb.ciEnv).value, variables)))
    {
      Put(name, value);
      if active {
        SetEnvironmentVariables(amb, variables);
      }
      r := this;
    }

    /** `doSetup()`: snapshot of the map `m`, then the overrides. */
    method DoSetup(amb: Ambient)
      modifies this, amb
      ensures originalEnvironment == Some(old(amb.env))
      ensures variables == old(variables) && active == old(active)
      ensures amb.Current() == old(amb.Current()).(
        env := Overridden(old(amb.env), variables),
        ciEnv := if old(amb.ciEnv).None? then None else Some(Overridden(old(amb.ciEnv).value, variables)))
    {
      originalEnvironment := Some(amb.env);
      SetEnvironmentVariables(amb, variables);
    }

    /** `doTeardown()`: both maps are cleared and refilled from the
        snapshot. Without a snapshot `putAll(null)` throws once the map `m`
        is cleared. */
    method DoTeardown(amb: Ambient) returns (c: Completion)
      modifies amb
      ensures originalEnvironment.Some? ==> c == Normal && amb.Current() == old(amb.Current()).(
        env := originalEnvironment.value,
        ciEnv := if old(amb.ciEnv).None? then None else originalEnvironment)
      ensures originalEnvironment.None? ==>
        c == Abrupt(NullPointerException) && amb.Current() == old(amb.Current()).(env := map[])
    {
      c := RestoreOriginalVariables(amb, originalEnvironment);
    }
  }

  /** Setup, then any changes to the environment, then teardown: the map
      `m` is back to what it was before setup, and so is the
      case-insensitive map when it held the same entries as `m`. */
  method SetupChangeTeardown(ev: EnvironmentVariables, amb: Ambient, changedEnv: Env, changedCiEnv: Env)
    returns (c: Completion)
    modifies ev, amb
    ensures c == Normal
    ensures amb.env == old(amb.env)
    ensures old(amb.ciEnv) == Some(old(amb.env)) ==> amb.ciEnv == old(amb.ciEnv)
    ensures old(amb.ciEnv).None? ==> amb.ciEnv.None?
  {
    ev.DoSetup(amb);
    amb.env := changedEnv;
    if amb.ciEnv.Some? {
      amb.ciEnv := Some(changedCiEnv);
    }
    c := ev.DoTeardown(amb);
  }
}

=== FILE: system_in.dfy ===
/** system-stubs' `SystemIn`: holds a chain of `AltInputStream`s, installs
    it as `System.in` on setup and reinstates the recorded stream on
    teardown. Whether the object is between setup and teardown
    (`isActive()` of its base class `SingularTestResource`) is the field
    `active`. */
module StubsSystemIn {
  import opened Jvm
  import opened Ambient
  import opened AltStreams

  const IoMessage: JString :=
    Str("You cannot call andExceptionThrownOnInputEnd(IOException) because andExceptionThrownOnInputEnd has already been called.")
  const RuntimeMessage: JString :=
    Str("You cannot call andExceptionThrownOnInputEnd(RuntimeException) because andExceptionThrownOnInputEnd has already been called.")

  /** The number of `ThrowAtEndStream` layers in the chain. */
  function ThrowAtEndCount(c: Chain): nat
  {
    match c
    case Source(_, _) => 0
    case Decorating(d) => ThrowAtEndCount(d)
    case ThrowAtEnd(_, _, d) => 1 + ThrowAtEndCount(d)
  }

  /** When the base-class check of a `ThrowAtEndStream` layer recognises
      its own class, `contains(ThrowAtEndStream.class)` finds such a layer
      anywhere in the chain: a second `andExceptionThrownOnInputEnd` fails. */
  lemma {:induction false} ContainsFindsThrowAtEnd(c: Chain, superContains: (JClass, JClass) -> bool)
    requires superContains(ThrowAtEndStreamClass, ThrowAtEndStreamClass)
    requires c.IsAlt() && ThrowAtEndCount(c) >= 1
    ensures Contains(c, ThrowAtEndStreamClass, superContains)
    decreases c
  {
    if c.Decorating? {
      ContainsFindsThrowAtEnd(c.decoratee, superContains);
    }
  }

  class SystemIn {
    var altInputStream: Chain
    var originalIn: InputRef
    var active: bool

    ghost predicate Valid()
      reads this
    {
      altInputStream.IsAlt()
    }

    /** `SystemIn(InputStream)`: the stream wrapped in one `DecoratingAltStream`. */
    constructor FromInputStream(inputStream: Chain)
      ensures Valid() && altInputStream == Decorating(inputStream)
      ensures originalIn == NullIn && !active
    {
      altInputStream := Decorating(inputStream);
      originalIn := NullIn;
      active := false;
    }

    /** `SystemIn(AltInputStream)`. */
    constructor FromAlt(altInputStream: Chain)
      requires altInputStream.IsAlt()
      ensures Valid() && this.altInputStream == altInputStream
      ensures originalIn == NullIn && !active
    {
      this.altInputStream := altInputStream;
      originalIn := NullIn;
      active := false;
    }

    /** `setInputStream(altInputStream)`: the field always, `System.in`
        only while active. */
    method SetInputStream(amb: Ambient, altInputStream: Chain)
      modifies this, amb
      ensures this.altInputStream == altInputStream
      ensures originalIn == old(originalIn) && active == old(active)
      ensures active ==> amb.Current() == old(amb.Current()).(input := StubsChain(altInputStream))
      ensures !active ==> amb.Current() == old(amb.Current())
    {
      if active {
        amb.input := StubsChain(altInputStream);
      }
      this.altInputStream := altInputStream;
    }

    /** `andExceptionThrownOnInputEnd(IOException)`: refused once the chain
        contains a `ThrowAtEndStream`; otherwise a new `ThrowAtEndStream`
        wraps the chain (a null exception is rejected by its constructor). */
    method AndExceptionThrownOnInputEndIO(amb: Ambient, exception: Option<nat>, superContains: (JClass, JClass) -> bool)
      returns (r: Outcome<SystemIn>)
      requires Valid()
      modifies this, amb
      ensures superContains(ThrowAtEndStreamClass, ThrowAtEndStreamClass) && ThrowAtEndCount(old(altInputStream)) <= 1 ==>
        ThrowAtEndCount(altInputStream) <= 1
      ensures Valid() && originalIn == old(originalIn) && active == old(active)
      ensures Contains(old(altInputStream), ThrowAtEndStreamClass, superContains) ==>
        r == Thrown(IllegalStateException(IoMessage))
      ensures !Contains(old(altInputStream), ThrowAtEndStreamClass, superContains) && exception.None? ==>
        r == Thrown(NullPointerException)
      ensures r.Thrown? ==> altInputStream == old(altInputStream) && amb.Current() == old(amb.Current())
      ensures !Contains(old(altInputStream), ThrowAtEndStreamClass, superContains) && exception.Some? ==>
        r == Value(this) && altInputStream == ThrowAtEnd(exception, None, old(altInputStream))
        && amb.Current() == (if active then old(amb.Current()).(input := StubsChain(altInputStream)) else old(amb.Current()))
      ensures !r.Halted?
    {
      if superContains(ThrowAtEndStreamClass, ThrowAtEndStreamClass) && ThrowAtEndCount(altInputStream) >= 1 {
        ContainsFindsThrowAtEnd(altInputStream, superContains);
      }
      if Contains(altInputStream, ThrowAtEndStreamClass, superContains) {
        return Thrown(IllegalStateException(IoMessage));
      }
      var layer := NewThrowAtEndForIO(altInputStream, exception);
      if layer.Thrown? {
        return Thrown(layer.exception);
      }
      SetInputStream(amb, layer.value);
      r := Value(this);
    }

    /** `andExceptionThrownOnInputEnd(RuntimeException)`. */
    method AndExceptionThrownOnInputEndRuntime(amb: Ambient, exception: Option<nat>, superContains: (JClass, JClass) -> bool)
      returns (r: Outcome<SystemIn>)
      requires Valid()
      modifies this, amb
      ensures superContains(ThrowAtEndStreamClass, ThrowAtEndStreamClass) && ThrowAtEndCount(old(altInputStream)) <= 1 ==>
        ThrowAtEndCount(altInputStream) <= 1
      ensures Valid() && originalIn == old(originalIn) && active == old(active)
      ensures Contains(old(altInputStream), ThrowAtEndStreamClass, superContains) ==>
        r == Thrown(IllegalStateException(RuntimeMessage))
      ensures !Contains(old(altInputStream), ThrowAtEndStreamClass, superContains) && exception.None? ==>
        r == Thrown(NullPointerException)
      ensures r.Thrown? ==> altInputStream == old(altInputStream) && amb.Current() == old(amb.Current())
      ensures !Contains(old(altInputStream), ThrowAtEndStreamClass, superContains) && exception.Some? ==>
        r == Value(this) && altInputStream == ThrowAtEnd(None, exception, old(altInputStream))
        && amb.Current() == (if active then old(amb.Current()).(input := StubsChain(altInputStream)) else old(amb.Current()))
      ensures !r.Halted?
    {
      if superContains(ThrowAtEndStreamClass, ThrowAtEndStreamClass) && ThrowAtEndCount(altInputStream) >= 1 {
        ContainsFindsThrowAtEnd(altInputStream, superContains);
      }
      if Contains(altInputStream, ThrowAtEndStreamClass, superContains) {
        return Thrown(IllegalStateException(RuntimeMessage));
      }
      var layer := NewThrowAtEndForRuntime(altInputStream, exception);
      if layer.Thrown? {
        return Thrown(layer.exception);
      }
      SetInputStream(amb, layer.value);
      r := Value(this);
    }

    /** `doSetup()`: records `System.in` and installs the chain. */
    method DoSetup(amb: Ambient)
      modifies this, amb
      ensures originalIn == old(amb.input)
      ensures altInputStream == old(altInputStream) && active == old(active)
      ensures amb.Current() == old(amb.Current()).(input := StubsChain(altInputStream))
    {
      originalIn := amb.input;
      amb.input := StubsChain(altInputStream);
    }

    /** `doTeardown()`: reinstates the recorded stream. */
    method DoTeardown(amb: Ambient)
      modifies amb
      ensures amb.Current() == old(amb.Current()).(input := originalIn)
    {
      amb.input := originalIn;
    }
  }
}

=== FILE: system_lambda.dfy ===
/** The static helpers of `com.github.stefanbirkner.systemlambda.SystemLambda`.
    Each saves a global slot, installs a replacement, runs the statement and
    puts the saved value back whether the statement completes normally or
    throws; the statement's completion comes through unchanged. */
module SystemLambda {
  import opened Jvm
  import opened Text
  import opened Sinks
  import opened Exit
  import opened Ambient
  import opened EnvOverrides
  import opened Statements
  import ReplacementInput

  /** A statement's completion as the outcome of a helper that returns `value`. */
  function Result<T>(c: Completion, value: T): (r: Outcome<T>)
    ensures r.Value? <==> c.Normal?
    ensures r.Value? ==> r.value == value
    ensures c.Abrupt? ==> r == Thrown(c.exception)
    ensures c.Exited? ==> r == Halted(c.status)
  {
    match c
    case Normal => Value(value)
    case Abrupt(e) => Thrown(e)
    case Exited(status) => Halted(status)
  }

  // ---------------------------------------------------------------------
  // Output streams

  /** `executeWithSystemErrReplacement(replacementForErr, statement)`. */
  method ExecuteWithSystemErrReplacement(amb: Ambient, replacementForErr: Sink, stmt: Statement)
    returns (c: Completion, ghost trace: seq<Effect>)
    modifies amb, amb.properties, TapsOf(replacementForErr, amb.out), ManagersOf(amb.securityManager)
    ensures var run := Run(old(amb.Current()).(err := replacementForErr), stmt);
      run == RunResult(run.slots, trace, c) && amb.Current() == run.slots.(err := old(amb.err))
    ensures amb.properties.table == PropertiesAfter(old(amb.properties.table), trace)
    ensures forall t :: t in TapsOf(replacementForErr, old(amb.out)) ==> t.written == old(t.written) + TapBytes(trace, t)
    ensures forall m :: m in ManagersOf(old(amb.securityManager)) ==>
      m.statusOfFirstExitCall == ExitStatusAfter(old(m.statusOfFirstExitCall), trace, m)
  {
    var originalStream := amb.err;
    amb.err := replacementForErr;
    c, trace := amb.Execute(stmt);
    amb.err := originalStream;
  }

  /** `executeWithSystemOutReplacement(replacementForOut, statement)`. */
  method ExecuteWithSystemOutReplacement(amb: Ambient, replacementForOut: Sink, stmt: Statement)
    returns (c: Completion, ghost trace: seq<Effect>)
    modifies amb, amb.properties, TapsOf(amb.err, replacementForOut), ManagersOf(amb.securityManager)
    ensures var run := Run(old(amb.Current()).(out := replacementForOut), stmt);
      run == RunResult(run.slots, trace, c) && amb.Current() == run.slots.(out := old(amb.out))
    ensures amb.properties.table == PropertiesAfter(old(amb.properties.table), trace)
    ensures forall t :: t in TapsOf(old(amb.err), replacementForOut) ==> t.written == old(t.written) + TapBytes(trace, t)
    ensures forall m :: m in ManagersOf(old(amb.securityManager)) ==>
      m.statusOfFirstExitCall == ExitStatusAfter(old(m.statusOfFirstExitCall), trace, m)
  {
    var originalStream := amb.out;
    amb.out := replacementForOut;
    c, trace := amb.Execute(stmt);
    amb.out := originalStream;
  }

  /** `tapSystemErr(statement)`: the text written to `System.err` while the
      statement runs, if it completes normally. */
  method TapSystemErr(amb: Ambient, stmt: Statement) returns (r: Outcome<JString>, ghost tapStream: TapStream)
    modifies amb, amb.properties, TapsOf(amb.out, amb.out), ManagersOf(amb.securityManager)
    ensures fresh(tapStream)
    ensures var run := Run(old(amb.Current()).(err := Tap(tapStream)), stmt);
      amb.Current() == run.slots.(err := old(amb.err))
      && r == Result(run.completion, Decode(TapBytes(run.trace, tapStream)))
    ensures Keeps(stmt, ErrSlot) && r.Value? ==> r.value == Decode(ErrBytes(stmt))
    ensures var run := Run(old(amb.Current()).(err := Tap(tapStream)), stmt);
      amb.properties.table == PropertiesAfter(old(amb.properties.table), run.trace)
      && (forall t :: t in TapsOf(old(amb.out), old(amb.out)) ==> t.written == old(t.written) + TapBytes(run.trace, t))
      && (forall m :: m in ManagersOf(old(amb.securityManager)) ==>
          m.statusOfFirstExitCall == ExitStatusAfter(old(m.statusOfFirstExitCall), run.trace, m))
  {
    var tap := new TapStream();
    tapStream := tap;
    var c;
    ghost var trace;
    assert tap in TapsOf(Tap(tap), amb.out);
    c, trace := ExecuteWithSystemErrReplacement(amb, Tap(tap), stmt);
    assert tap.written == TapBytes(trace, tap);
    ghost var s := old(amb.Current()).(err := Tap(tap));
    if Keeps(stmt, ErrSlot) {
      RunCaptures(s, stmt, tapStream, true, false);
      assert stmt[..|stmt|] == stmt;
    }
    r := Result(c, tap.TextThatWasWritten());
  }

  /** `tapSystemOut(statement)`. */
  method TapSystemOut(amb: Ambient, stmt: Statement) returns (r: Outcome<JString>, ghost tapStream: TapStream)
    modifies amb, amb.properties, TapsOf(amb.err, amb.err), ManagersOf(amb.securityManager)
    ensures fresh(tapStream)
    ensures var run := Run(old(amb.Current()).(out := Tap(tapStream)), stmt);
      amb.Current() == run.slots.(out := old(amb.out))
      && r == Result(run.completion, Decode(TapBytes(run.trace, tapStream)))
    ensures Keeps(stmt, OutSlot) && r.Value? ==> r.value == Decode(OutBytes(stmt))
    ensures var run := Run(old(amb.Current()).(out := Tap(tapStream)), stmt);
      amb.properties.table == PropertiesAfter(old(amb.properties.table), run.trace)
      && (forall t :: t in TapsOf(old(amb.err), old(amb.err)) ==> t.written == old(t.written) + TapBytes(run.trace, t))
      && (forall m :: m in ManagersOf(old(amb.securityManager)) ==>
          m.statusOfFirstExitCall == ExitStatusAfter(old(m.statusOfFirstExitCall), run.trace, m))
  {
    var tap := new TapStream();
    tapStream := tap;
    var c;
    ghost var trace;
    assert tap in TapsOf(amb.err, Tap(tap));
    c, trace := ExecuteWithSystemOutReplacement(amb, Tap(tap), stmt);
    assert tap.written == TapBytes(trace, tap);
    ghost var s := old(amb.Current()).(out := Tap(tap));
    if Keeps(stmt, OutSlot) {
      RunCaptures(s, stmt, tapStream, false, true);
      assert stmt[..|stmt|] == stmt;
    }
    r := Result(c, tap.TextThatWasWritten());
  }

  /** `tapSystemErrAndOut(statement)`: one tap replaces both streams (the
      `System.out` replacement runs inside the `System.err` replacement). */
  method TapSystemErrAndOut(amb: Ambient, stmt: Statement) returns (r: Outcome<JString>, ghost tapStream: TapStream)
    modifies amb, amb.properties, ManagersOf(amb.securityManager)
    ensures fresh(tapStream)
    ensures var run := Run(old(amb.Current()).(err := Tap(tapStream), out := Tap(tapStream)), stmt);
      amb.Current() == run.slots.(err := old(amb.err), out := old(amb.out))
      && r == Result(run.completion, Decode(TapBytes(run.trace, tapStream)))
    ensures Keeps(stmt, ErrSlot) && Keeps(stmt, OutSlot) && r.Value? ==> r.value == Decode(AllBytes(stmt))
    ensures var run := Run(old(amb.Current()).(err := Tap(tapStream), out := Tap(tapStream)), stmt);
      amb.properties.table == PropertiesAfter(old(amb.properties.table), run.trace)
      && (forall m :: m in ManagersOf(old(amb.securityManager)) ==>
          m.statusOfFirstExitCall == ExitStatusAfter(old(m.statusOfFirstExitCall), run.trace, m))
  {
    var tap := new TapStream();
    tapStream := tap;
    var originalErr := amb.err;
    amb.err := Tap(tap);
    var c;
    ghost var trace;
    assert tap in TapsOf(amb.err, Tap(tap));
    c, trace := ExecuteWithSystemOutReplacement(amb, Tap(tap), stmt);
    assert tap.written == TapBytes(trace, tap);
    amb.err := originalErr;
    ghost var s := old(amb.Current()).(err := Tap(tap), out := Tap(tap));
    if Keeps(stmt, ErrSlot) && Keeps(stmt, OutSlot) {
      RunCaptures(s, stmt, tapStream, true, true);
      assert stmt[..|stmt|] == stmt;
    }
    r := Result(c, tap.TextThatWasWritten());
  }

  /** `text.replace(lineSeparator, "\n")`, as the `...Normalized` helpers apply it. */
  function Normalized(text: JString, lineSeparator: JString): JString
  {
    Replace(text, lineSeparator, Str("\n"))
  }

  /** `tapSystemErrNormalized(statement)`: the tapped text with every line
      separator replaced by `\n`. */
  method TapSystemErrNormalized(amb: Ambient, stmt: Statement, lineSeparator: JString)
    returns (r: Outcome<JString>, ghost tapStream: TapStream)
    modifies amb, amb.properties, TapsOf(amb.out, amb.out), ManagersOf(amb.securityManager)
    ensures fresh(tapStream)
    ensures var run := Run(old(amb.Current()).(err := Tap(tapStream)), stmt);
      amb.Current() == run.slots.(err := old(amb.err))
      && r == Result(run.completion, Normalized(Decode(TapBytes(run.trace, tapStream)), lineSeparator))
    ensures Keeps(stmt, ErrSlot) && r.Value? ==> r.value == Normalized(Decode(ErrBytes(stmt)), lineSeparator)
    ensures var run := Run(old(amb.Current()).(err := Tap(tapStream)), stmt);
      amb.properties.table == PropertiesAfter(old(amb.properties.table), run.trace)
      && (forall t :: t in TapsOf(old(amb.out), old(amb.out)) ==> t.written == old(t.written) + TapBytes(run.trace, t))
      && (forall m :: m in ManagersOf(old(amb.securityManager)) ==>
          m.statusOfFirstExitCall == ExitStatusAfter(old(m.statusOfFirstExitCall), run.trace, m))
  {
    var tapped;
    tapped, tapStream := TapSystemErr(amb, stmt);
    r := if tapped.Value? then Value(Normalized(tapped.value, lineSeparator)) else tapped;
  }

  /** `tapSystemOutNormalized(statement)`. */
  method TapSystemOutNormalized(amb: Ambient, stmt: Statement, lineSeparator: JString)
    returns (r: Outcome<JString>, ghost tapStream: TapStream)
    modifies amb, amb.properties, TapsOf(amb.err, amb.err), ManagersOf(amb.securityManager)
    ensures fresh(tapStream)
    ensures var run := Run(old(amb.Current()).(out := Tap(tapStream)), stmt);
      amb.Current() == run.slots.(out := old(amb.out))
      && r == Result(run.completion, Normalized(Decode(TapBytes(run.trace, tapStream)), lineSeparator))
    ensures Keeps(stmt, OutSlot) && r.Value? ==> r.value == Normalized(Decode(OutBytes(stmt)), lineSeparator)
    ensures var run := Run(old(amb.Current()).(out := Tap(tapStream)), stmt);
      amb.properties.table == PropertiesAfter(old(amb.properties.table), run.trace)
      && (forall t :: t in TapsOf(old(amb.err), old(amb.err)) ==> t.written == old(t.written) + TapBytes(run.trace, t))
      && (forall m :: m in ManagersOf(old(amb.securityManager)) ==>
          m.statusOfFirstExitCall == ExitStatusAfter(old(m.statusOfFirstExitCall), run.trace, m))
  {
    var tapped;
    tapped, tapStream := TapSystemOut(amb, stmt);
    r := if tapped.Value? then Value(Normalized(tapped.value, lineSeparator)) else tapped;
  }

  /** `tapSystemErrAndOutNormalized(statement)`. */
  method TapSystemErrAndOutNormalized(amb: Ambient, stmt: Statement, lineSeparator: JString)
    returns (r: Outcome<JString>, ghost tapStream: TapStream)
    modifies amb, amb.properties, ManagersOf(amb.securityManager)
    ensures fresh(tapStream)
    ensures var run := Run(old(amb.Current()).(err := Tap(tapStream), out := Tap(tapStream)), stmt);
      amb.Current() == run.slots.(err := old(amb.err), out := old(amb.out))
      && r == Result(run.completion, Normalized(Decode(TapBytes(run.trace, tapStream)), lineSeparator))
    ensures Keeps(stmt, ErrSlot) && Keeps(stmt, OutSlot) && r.Value? ==> r.value == Normalized(Decode(AllBytes(stmt)), lineSeparator)
    ensures var run := Run(old(amb.Current()).(err := Tap(tapStream), out := Tap(tapStream)), stmt);
      amb.properties.table == PropertiesAfter(old(amb.properties.table), run.trace)
      && (forall m :: m in ManagersOf(old(amb.securityManager)) ==>
          m.statusOfFirstExitCall == ExitStatusAfter(old(m.statusOfFirstExitCall), run.trace, m))
  {
    var tapped;
    tapped, tapStream := TapSystemErrAndOut(amb, stmt);
    r := if tapped.Value? then Value(Normalized(tapped.value, lineSeparator)) else tapped;
  }

  /** `muteSystemErr(statement)`: `System.err` drops every byte. */
  method MuteSystemErr(amb: Ambient, stmt: Statement) returns (c: Completion, ghost trace: seq<Effect>)
    modifies amb, amb.properties, TapsOf(amb.out, amb.out), ManagersOf(amb.securityManager)
    ensures var run := Run(old(amb.Current()).(err := Noop), stmt);
      run == RunResult(run.slots, trace, c) && amb.Current() == run.slots.(err := old(amb.err))
    ensures Keeps(stmt, ErrSlot) ==> var quiet := Run(old(amb.Current()).(err := Noop), WithoutWrites(stmt, ErrSlot));
      c == quiet.completion && amb.Current() == quiet.slots.(err := old(amb.err))
      && Effects(trace) == Effects(quiet.trace)
    ensures amb.properties.table == PropertiesAfter(old(amb.properties.table), trace)
    ensures forall t :: t in TapsOf(old(amb.out), old(amb.out)) ==> t.written == old(t.written) + TapBytes(trace, t)
    ensures forall m :: m in ManagersOf(old(amb.securityManager)) ==>
      m.statusOfFirstExitCall == ExitStatusAfter(old(m.statusOfFirstExitCall), trace, m)
  {
    c, trace := ExecuteWithSystemErrReplacement(amb, Noop, stmt);
    if Keeps(stmt, ErrSlot) {
      MutedWritesAreDropped(old(amb.Current()).(err := Noop), stmt, ErrSlot);
    }
  }

  /** `muteSystemOut(statement)`. */
  method MuteSystemOut(amb: Ambient, stmt: Statement) returns (c: Completion, ghost trace: seq<Effect>)
    modifies amb, amb.properties, TapsOf(amb.err, amb.err), ManagersOf(amb.securityManager)
    ensures var run := Run(old(amb.Current()).(out := Noop), stmt);
      run == RunResult(run.slots, trace, c) && amb.Current() == run.slots.(out := old(amb.out))
    ensures Keeps(stmt, OutSlot) ==> var quiet := Run(old(amb.Current()).(out := Noop), WithoutWrites(stmt, OutSlot));
      c == quiet.completion && amb.Current() == quiet.slots.(out := old(amb.out))
      && Effects(trace) == Effects(quiet.trace)
    ensures amb.properties.table == PropertiesAfter(old(amb.properties.table), trace)
    ensures forall t :: t in TapsOf(old(amb.err), old(amb.err)) ==> t.written == old(t.written) + TapBytes(trace, t)
    ensures forall m :: m in ManagersOf(old(amb.securityManager)) ==>
      m.statusOfFirstExitCall == ExitStatusAfter(old(m.statusOfFirstExitCall), trace, m)
  {
    c, trace := ExecuteWithSystemOutReplacement(amb, Noop, stmt);
    if Keeps(stmt, OutSlot) {
      MutedWritesAreDropped(old(amb.Current()).(out := Noop), stmt, OutSlot);
    }
  }

  /** `assertNothingWrittenToSystemErr(statement)`: the first byte written
      to `System.err` fails the statement. */
  method AssertNothingWrittenToSystemErr(amb: Ambient, stmt: Statement) returns (c: Completion, ghost trace: seq<Effect>)
    modifies amb, amb.properties, TapsOf(amb.out, amb.out), ManagersOf(amb.securityManager)
    ensures var run := Run(old(amb.Current()).(err := Disallow), stmt);
      run == RunResult(run.slots, trace, c) && amb.Current() == run.slots.(err := old(amb.err))
    ensures Keeps(stmt, ErrSlot) && c.Normal? ==> forall i :: 0 <= i < |stmt| ==> !WritesTo(stmt[i], ErrSlot)
    ensures amb.properties.table == PropertiesAfter(old(amb.properties.table), trace)
    ensures forall t :: t in TapsOf(old(amb.out), old(amb.out)) ==> t.written == old(t.written) + TapBytes(trace, t)
    ensures forall m :: m in ManagersOf(old(amb.securityManager)) ==>
      m.statusOfFirstExitCall == ExitStatusAfter(old(m.statusOfFirstExitCall), trace, m)
  {
    c, trace := ExecuteWithSystemErrReplacement(amb, Disallow, stmt);
    if Keeps(stmt, ErrSlot) && c.Normal? {
      DisallowedRunWritesNothing(old(amb.Current()).(err := Disallow), stmt, ErrSlot);
    }
  }

  /** `assertNothingWrittenToSystemOut(statement)`. */
  method AssertNothingWrittenToSystemOut(amb: Ambient, stmt: Statement) returns (c: Completion, ghost trace: seq<Effect>)
    modifies amb, amb.properties, TapsOf(amb.err, amb.err), ManagersOf(amb.securityManager)
    ensures var run := Run(old(amb.Current()).(out := Disallow), stmt);
      run == RunResult(run.slots, trace, c) && amb.Current() == run.slots.(out := old(amb.out))
    ensures Keeps(stmt, OutSlot) && c.Normal? ==> forall i :: 0 <= i < |stmt| ==> !WritesTo(stmt[i], OutSlot)
    ensures amb.properties.table == PropertiesAfter(old(amb.properties.table), trace)
    ensures forall t :: t in TapsOf(old(amb.err), old(amb.err)) ==> t.written == old(t.written) + TapBytes(trace, t)
    ensures forall m :: m in ManagersOf(old(amb.securityManager)) ==>
      m.statusOfFirstExitCall == ExitStatusAfter(old(m.statusOfFirstExitCall), trace, m)
  {
    c, trace := ExecuteWithSystemOutReplacement(amb, Disallow, stmt);
    if Keeps(stmt, OutSlot) && c.Normal? {
      DisallowedRunWritesNothing(old(amb.Current()).(out := Disallow), stmt, OutSlot);
    }
  }


  // ---------------------------------------------------------------------
  // System properties and the security manager

  /** `restoreSystemProperties(statement)`: the statement works on a copy of
      the properties; afterwards the original object is reinstated, its
      entries untouched. */
  method RestoreSystemProperties(amb: Ambient, stmt: Statement)
    returns (c: Completion, ghost trace: seq<Effect>, ghost copy: Properties)
    modifies amb, TapsOf(amb.err, amb.out), ManagersOf(amb.securityManager)
    ensures fresh(copy)
    ensures var run := Run(old(amb.Current()).(properties := copy), stmt);
      run == RunResult(run.slots, trace, c) && amb.Current() == run.slots.(properties := old(amb.properties))
    ensures copy.table == PropertiesAfter(old(amb.properties.table), trace)
    ensures amb.properties.table == old(amb.properties.table)
    ensures forall t :: t in TapsOf(old(amb.err), old(amb.out)) ==> t.written == old(t.written) + TapBytes(trace, t)
    ensures forall m :: m in ManagersOf(old(amb.securityManager)) ==>
      m.statusOfFirstExitCall == ExitStatusAfter(old(m.statusOfFirstExitCall), trace, m)
  {
    var originalProperties := amb.properties;
    var copyOf := new Properties.CopyOf(originalProperties);
    copy := copyOf;
    amb.properties := copyOf;
    c, trace := amb.Execute(stmt);
    amb.properties := originalProperties;
  }

  /** `withSecurityManager(securityManager, statement)`. */
  method WithSecurityManager(amb: Ambient, securityManager: Policy, stmt: Statement)
    returns (c: Completion, ghost trace: seq<Effect>)
    modifies amb, amb.properties, TapsOf(amb.err, amb.out), ManagersOf(securityManager)
    ensures var run := Run(old(amb.Current()).(securityManager := securityManager), stmt);
      run == RunResult(run.slots, trace, c)
      && amb.Current() == run.slots.(securityManager := old(amb.securityManager))
    ensures amb.properties.table == PropertiesAfter(old(amb.properties.table), trace)
    ensures forall m :: m in ManagersOf(securityManager) ==>
      m.statusOfFirstExitCall == ExitStatusAfter(old(m.statusOfFirstExitCall), trace, m)
    ensures forall t :: t in TapsOf(old(amb.err), old(amb.out)) ==> t.written == old(t.written) + TapBytes(trace, t)
  {
    var originalSecurityManager := amb.securityManager;
    amb.securityManager := securityManager;
    c, trace := amb.Execute(stmt);
    amb.securityManager := originalSecurityManager;
  }

  /** What `catchSystemExit` returns once the statement has completed with
      `c` and the manager holds `status`: a `CheckExitCalled` is caught,
      every other exception propagates. */
  function CatchResult(c: Completion, status: Option<int>): (r: Outcome<int>)
    ensures c.Exited? ==> r == Halted(c.status)
    ensures c.Abrupt? && c.exception != CheckExitCalled ==> r == Thrown(c.exception)
    ensures (c.Normal? || c == Abrupt(CheckExitCalled)) && status.Some? ==> r == Value(status.value)
    ensures (c.Normal? || c == Abrupt(CheckExitCalled)) && status.None? ==> r == Thrown(AssertionError(NotCalledMessage))
  {
    if c.Exited? then Halted(c.status)
    else if c.Abrupt? && c.exception != CheckExitCalled then Thrown(c.exception)
    else if status.Some? then Value(status.value)
    else Thrown(AssertionError(NotCalledMessage))
  }

  /** `catchSystemExit(statement)`: the statement runs under a fresh
      `NoExitSecurityManager`; the result is the status of the first call to
      `System.exit`, or an `AssertionError` when there was none. */
  method CatchSystemExit(amb: Ambient, stmt: Statement)
    returns (r: Outcome<int>, ghost manager: NoExitSecurityManager)
    modifies amb, amb.properties, TapsOf(amb.err, amb.out)
    ensures fresh(manager) && manager.originalSecurityManager == old(amb.securityManager)
    ensures var run := Run(old(amb.Current()).(securityManager := Intercepting(manager)), stmt);
      amb.Current() == run.slots.(securityManager := old(amb.securityManager))
      && r == CatchResult(run.completion, ExitStatusAfter(None, run.trace, manager))
      && (KeepsManager(stmt) ==> r == CatchResult(run.completion, FirstExit(stmt[..|run.trace|])))
    ensures var run := Run(old(amb.Current()).(securityManager := Intercepting(manager)), stmt);
      amb.properties.table == PropertiesAfter(old(amb.properties.table), run.trace)
      && (forall t :: t in TapsOf(old(amb.err), old(amb.out)) ==> t.written == old(t.written) + TapBytes(run.trace, t))
  {
    var noExitSecurityManager := new NoExitSecurityManager(amb.securityManager);
    manager := noExitSecurityManager;
    ghost var s := amb.Current().(securityManager := Intercepting(noExitSecurityManager));
    if KeepsManager(stmt) {
      RunRecordsFirstExit(s, stmt, noExitSecurityManager);
    }
    assert noExitSecurityManager in ManagersOf(Intercepting(noExitSecurityManager));
    var c;
    ghost var trace;
    c, trace := WithSecurityManager(amb, Intercepting(noExitSecurityManager), stmt);
    if c.Exited? {
      r := Halted(c.status);
    } else if c.Abrupt? && c.exception != CheckExitCalled {
      r := Thrown(c.exception);
    } else {
      r := CheckSystemExit(noExitSecurityManager);
    }
  }

  /** A statement that reaches a call to `System.exit(status)` with no
      earlier call makes `catchSystemExit` return that status. */
  lemma CatchSystemExitReturnsStatus(s: Slots, stmt: Statement, m: NoExitSecurityManager, k: nat)
    requires s.securityManager == Intercepting(m) && KeepsManager(stmt)
    requires k < |stmt| && stmt[k].CallExit? && Run(s, stmt[..k]).completion.Normal?
    requires forall i :: 0 <= i < k ==> ExitOf(stmt[i]).None?
    ensures var run := Run(s, stmt);
      CatchResult(run.completion, ExitStatusAfter(None, run.trace, m)) == Value(stmt[k].status)
  {
    ExitEndsStatement(s, stmt, m, k);
    assert stmt[..k + 1] == stmt[..k] + [stmt[k]];
    assert FirstExit(stmt[..k]) == None by {
      assert forall i :: 0 <= i < k ==> stmt[..k][i] == stmt[i];
    }
    FirstExitAppend(stmt[..k], [stmt[k]]);
    assert FirstExit([stmt[k]]) == Some(stmt[k].status) by {
      assert [stmt[k]][1..] == [];
    }
  }

  /** A statement that completes without calling `System.exit` makes
      `catchSystemExit` fail with "System.exit has not been called." */
  lemma CatchSystemExitWithoutExit(s: Slots, stmt: Statement, m: NoExitSecurityManager)
    requires s.securityManager == Intercepting(m) && KeepsManager(stmt)
    requires Run(s, stmt).completion.Normal? && FirstExit(stmt) == None
    ensures var run := Run(s, stmt);
      CatchResult(run.completion, ExitStatusAfter(None, run.trace, m)) == Thrown(AssertionError(NotCalledMessage))
  {
    RunRecordsFirstExit(s, stmt, m);
    assert stmt[..|stmt|] == stmt;
  }

  /** The first call among `a + b` is the first in `a`, else the first in `b`. */
  lemma {:induction false} FirstExitAppend(a: Statement, b: Statement)
    ensures FirstExit(a + b) == if FirstExit(a).Some? then FirstExit(a) else FirstExit(b)
    decreases |a|
  {
    if a == [] {
      assert a + b == b;
    } else {
      assert (a + b)[0] == a[0] && (a + b)[1..] == a[1..] + b;
      FirstExitAppend(a[1..], b);
    }
  }

  // ---------------------------------------------------------------------
  // System.in

  const IoAfterRuntimeMessage: JString :=
    Str("You cannot call andExceptionThrownOnInputEnd(IOException) because andExceptionThrownOnInputEnd(RuntimeException) has already been called.")
  const RuntimeAfterIoMessage: JString :=
    Str("You cannot call andExceptionThrownOnInputEnd(RuntimeException) because andExceptionThrownOnInputEnd(IOException) has already been called.")

  /** The text `withTextFromSystemIn(lines)` provides: every line followed
      by the line separator. */
  function StdinText(lines: seq<JString>, lineSeparator: JString): (text: JString)
    ensures |text| == TotalLength(lines) + |lines| * |lineSeparator|
  {
    JoinTerminatedLength(lines, lineSeparator);
    JoinTerminated(lines, lineSeparator)
  }

  /** `withTextFromSystemIn(lines...)`. */
  method WithTextFromSystemIn(lines: seq<JString>, lineSeparator: JString) returns (stub: SystemInStub)
    ensures fresh(stub)
    ensures stub.text == StdinText(lines, lineSeparator)
    ensures stub.ioException.None? && stub.runtimeException.None?
  {
    stub := new SystemInStub(StdinText(lines, lineSeparator));
  }

  /** Normalising the line separators of the stubbed text gives the lines
      each followed by `\n`, when no line contains the separator's first
      character. */
  lemma StdinTextNormalized(lines: seq<JString>, lineSeparator: JString)
    requires lineSeparator != []
    requires forall i :: 0 <= i < |lines| ==> lineSeparator[0] !in lines[i]
    ensures Normalized(StdinText(lines, lineSeparator), lineSeparator) == StdinText(lines, Str("\n"))
  {
    ReplaceJoined(lines, lineSeparator, Str("\n"));
  }

  class SystemInStub {
    var ioException: Option<nat>
    var runtimeException: Option<nat>
    const text: JString

    constructor (text: JString)
      ensures this.text == text && ioException.None? && runtimeException.None?
    {
      this.text := text;
      ioException := None;
      runtimeException := None;
    }

    /** `andExceptionThrownOnInputEnd(IOException)`: refused once a
        `RuntimeException` is set; a null exception is accepted. */
    method AndExceptionThrownOnInputEndIO(exception: Option<nat>) returns (r: Outcome<SystemInStub>)
      modifies this
      ensures old(runtimeException).Some? ==>
        r == Thrown(IllegalStateException(IoAfterRuntimeMessage)) && ioException == old(ioException)
      ensures old(runtimeException).None? ==> r == Value(this) && ioException == exception
      ensures runtimeException == old(runtimeException)
    {
      if runtimeException.Some? {
        return Thrown(IllegalStateException(IoAfterRuntimeMessage));
      }
      ioException := exception;
      r := Value(this);
    }

    /** `andExceptionThrownOnInputEnd(RuntimeException)`. */
    method AndExceptionThrownOnInputEndRuntime(exception: Option<nat>) returns (r: Outcome<SystemInStub>)
      modifies this
      ensures old(ioException).Some? ==>
        r == Thrown(IllegalStateException(RuntimeAfterIoMessage)) && runtimeException == old(runtimeException)
      ensures old(ioException).None? ==> r == Value(this) && runtimeException == exception
      ensures ioException == old(ioException)
    {
      if ioException.Some? {
        return Thrown(IllegalStateException(RuntimeAfterIoMessage));
      }
      runtimeException := exception;
      r := Value(this);
    }

    /** `execute(statement)`: `System.in` reads the text while the statement
        runs and is put back afterwards. */
    method Execute(amb: Ambient, stmt: Statement)
      returns (c: Completion, ghost trace: seq<Effect>, ghost stubStream: ReplacementInput.ReplacementInputStream)
      modifies amb, amb.properties, TapsOf(amb.err, amb.out), ManagersOf(amb.securityManager)
      ensures fresh(stubStream) && stubStream.Valid() && stubStream.position == 0
      ensures stubStream.text == text
      ensures stubStream.ioException == ioException && stubStream.runtimeException == runtimeException
      ensures var run := Run(old(amb.Current()).(input := LambdaStub(stubStream)), stmt);
        run == RunResult(run.slots, trace, c) && amb.Current() == run.slots.(input := old(amb.input))
      ensures amb.properties.table == PropertiesAfter(old(amb.properties.table), trace)
      ensures forall t :: t in TapsOf(old(amb.err), old(amb.out)) ==> t.written == old(t.written) + TapBytes(trace, t)
      ensures forall m :: m in ManagersOf(old(amb.securityManager)) ==>
        m.statusOfFirstExitCall == ExitStatusAfter(old(m.statusOfFirstExitCall), trace, m)
    {
      var stream := new ReplacementInput.ReplacementInputStream(text, ioException, runtimeException);
      stubStream := stream;
      var originalIn := amb.input;
      amb.input := LambdaStub(stream);
      c, trace := amb.Execute(stmt);
      amb.input := originalIn;
    }
  }

  // ---------------------------------------------------------------------
  // Environment variables

  /** `withEnvironmentVariable(name, value)`. */
  method WithEnvironmentVariable(name: JString, value: Option<JString>) returns (r: WithEnvironmentVariables)
    ensures fresh(r) && r.variables == map[name := value]
  {
    r := new WithEnvironmentVariables(map[name := value]);
  }

  class WithEnvironmentVariables {
    const variables: Overrides

    constructor (variables: Overrides)
      ensures this.variables == variables
    {
      this.variables := variables;
    }

    /** `and(name, value)`: a new object with one more variable; a name
        given before is refused. */
    method And(name: JString, value: Option<JString>) returns (r: Outcome<WithEnvironmentVariables>)
      ensures r.Thrown? <==> name in variables
      ensures r.Thrown? ==> r.exception == IllegalArgumentException(DuplicateMessage(name, value, variables[name]))
      ensures r.Value? ==> fresh(r.value) && r.value.variables == variables[name := value]
      ensures !r.Halted?
    {
      var thrown := ValidateNotSet(variables, name, value);
      if thrown.Some? {
        return Thrown(thrown.value);
      }
      var moreVariables := new WithEnvironmentVariables(variables[name := value]);
      r := Value(moreVariables);
    }

    /** `execute(statement)`: the statement runs with the variables
        overridden; afterwards both environment maps hold the snapshot of
        the map `m` taken before. */
    method Execute(amb: Ambient, stmt: Statement) returns (c: Completion, ghost trace: seq<Effect>)
      modifies amb, amb.properties, TapsOf(amb.err, amb.out), ManagersOf(amb.securityManager)
      ensures var run := Run(old(amb.Current()).(
          env := Overridden(old(amb.env), variables),
          ciEnv := if old(amb.ciEnv).None? then None else Some(Overridden(old(amb.ciEnv).value, variables))), stmt);
        run == RunResult(run.slots, trace, c)
        && amb.Current() == run.slots.(env := old(amb.env), ciEnv := if old(amb.ciEnv).None? then None else Some(old(amb.env)))
      ensures amb.properties.table == PropertiesAfter(old(amb.properties.table), trace)
      ensures forall t :: t in TapsOf(old(amb.err), old(amb.out)) ==> t.written == old(t.written) + TapBytes(trace, t)
      ensures forall m :: m in ManagersOf(old(amb.securityManager)) ==>
        m.statusOfFirstExitCall == ExitStatusAfter(old(m.statusOfFirstExitCall), trace, m)
    {
      var originalVariables := amb.env;
      SetEnvironmentVariables(amb, variables);
      c, trace := amb.Execute(stmt);
      var restored := RestoreOriginalVariables(amb, Some(originalVariables));
    }
  }
}

=== FILE: text.dfy ===
/** Text operations the library relies on: `String.replace` (used to
    normalise line separators) and line-terminated joining (used to build
    the text offered on `System.in`). Generic over the element type so that
    they apply to characters and to bytes alike. */
module Text {

  /** `p` occurs in `s` at position 0. */
  predicate StartsWith<T(==)>(s: seq<T>, p: seq<T>)
  {
    |p| <= |s| && s[..|p|] == p
  }

  /** `p` occurs in `s` at position `i`. */
  predicate OccursAt<T(==)>(s: seq<T>, p: seq<T>, i: nat)
  {
    i <= |s| && StartsWith(s[i..], p)
  }

  /** `String.replace(target, replacement)`: occurrences of `target` are
      found from left to right and replaced without overlapping; an empty
      target matches before every element and at the end. */
  function Replace<T(==)>(s: seq<T>, target: seq<T>, replacement: seq<T>): seq<T>
  {
    if target == [] then InsertEverywhere(s, replacement)
    else ReplaceOccurrences(s, target, replacement)
  }

  function InsertEverywhere<T>(s: seq<T>, insert: seq<T>): seq<T>
  {
    if s == [] then insert else insert + [s[0]] + InsertEverywhere(s[1..], insert)
  }

  function ReplaceOccurrences<T(==)>(s: seq<T>, target: seq<T>, replacement: seq<T>): seq<T>
    requires target != []
    decreases |s|
  {
    if s == [] then []
    else if StartsWith(s, target) then replacement + ReplaceOccurrences(s[|target|..], target, replacement)
    else [s[0]] + ReplaceOccurrences(s[1..], target, replacement)
  }

  /** Text without any occurrence of the target is left as it is. */
  lemma {:induction false} ReplaceWithoutOccurrence<T>(s: seq<T>, target: seq<T>, replacement: seq<T>)
    requires target != []
    requires forall i :: 0 <= i <= |s| ==> !OccursAt(s, target, i)
    ensures Replace(s, target, replacement) == s
    decreases |s|
  {
    if s != [] {
      assert !OccursAt(s, target, 0);
      assert s[0..] == s;
      forall i | 0 <= i <= |s[1..]| ensures !OccursAt(s[1..], target, i) {
        assert !OccursAt(s, target, i + 1);
        assert s[1..][i..] == s[i + 1..];
      }
      ReplaceWithoutOccurrence(s[1..], target, replacement);
    }
  }

  /** Replacing the target by itself changes nothing: normalising text whose
      separator already is the replacement is the identity. */
  lemma {:induction false} ReplaceBySelf<T>(s: seq<T>, target: seq<T>)
    ensures Replace(s, target, target) == s
    decreases |s|
  {
    if target == [] {
      InsertNothing(s);
    } else if s != [] {
      if StartsWith(s, target) {
        ReplaceBySelf(s[|target|..], target);
        assert s == s[..|target|] + s[|target|..];
      } else {
        ReplaceBySelf(s[1..], target);
        assert s == [s[0]] + s[1..];
      }
    }
  }

  lemma {:induction false} InsertNothing<T>(s: seq<T>)
    ensures InsertEverywhere(s, []) == s
    decreases |s|
  {
    if s != [] {
      InsertNothing(s[1..]);
      assert s == [s[0]] + s[1..];
    }
  }

  /** Text that starts with `p` starts with the first element of `p`. */
  lemma StartsWithFirst<T>(s: seq<T>, p: seq<T>)
    requires p != []
    ensures StartsWith(s, p) ==> s != [] && s[0] == p[0]
  {
    if StartsWith(s, p) {
      assert s[..|p|][0] == s[0];
    }
  }

  /** Where the text does not start with the target, its first element is kept. */
  lemma ReplaceSkipsOne<T>(s: seq<T>, target: seq<T>, replacement: seq<T>)
    requires target != [] && s != [] && !StartsWith(s, target)
    ensures Replace(s, target, replacement) == [s[0]] + Replace(s[1..], target, replacement)
  {
  }

  /** Where the text starts with the target, the target is replaced. */
  lemma ReplaceAtOccurrence<T>(s: seq<T>, target: seq<T>, replacement: seq<T>)
    requires target != [] && StartsWith(s, target)
    ensures Replace(s, target, replacement) == replacement + Replace(s[|target|..], target, replacement)
  {
  }

  /** A line that does not contain the first element of the separator is
      copied unchanged, and the separator right after it is replaced. */
  lemma {:induction false} ReplaceAfterLine<T>(line: seq<T>, target: seq<T>, replacement: seq<T>, rest: seq<T>)
    requires target != [] && target[0] !in line
    ensures Replace(line + target + rest, target, replacement)
         == line + replacement + Replace(rest, target, replacement)
    decreases |line|
  {
    if line == [] {
      ReplaceAfterEmptyLine(target, replacement, rest);
    } else {
      assert line[0] in line;
      ReplaceAfterLine(line[1..], target, replacement, rest);
      ReplaceAfterLineStep(line, target, replacement, rest);
    }
  }

  lemma ReplaceAfterEmptyLine<T>(target: seq<T>, replacement: seq<T>, rest: seq<T>)
    requires target != []
    ensures Replace([] + target + rest, target, replacement) == [] + replacement + Replace(rest, target, replacement)
  {
    var s := [] + target + rest;
    assert s[..|target|] == target;
    ReplaceAtOccurrence(s, target, replacement);
    assert s[|target|..] == rest;
  }

  /** One element of the line is copied, given that the rest of the line is. */
  lemma ReplaceAfterLineStep<T>(line: seq<T>, target: seq<T>, replacement: seq<T>, rest: seq<T>)
    requires target != [] && line != [] && line[0] != target[0]
    requires Replace(line[1..] + target + rest, target, replacement)
          == line[1..] + replacement + Replace(rest, target, replacement)
    ensures Replace(line + target + rest, target, replacement)
         == line + replacement + Replace(rest, target, replacement)
  {
    var s := line + target + rest;
    var tail := Replace(rest, target, replacement);
    assert s[0] == line[0];
    StartsWithFirst(s, target);
    calc {
      Replace(s, target, replacement);
    == { ReplaceSkipsOne(s, target, replacement); }
      [s[0]] + Replace(s[1..], target, replacement);
    == { assert s[1..] == line[1..] + target + rest; }
      [line[0]] + (line[1..] + replacement + tail);
    == { assert line == [line[0]] + line[1..]; }
      line + replacement + tail;
    }
  }

  /** The lines, each followed by the terminator, concatenated in order. */
  function JoinTerminated<T>(lines: seq<seq<T>>, terminator: seq<T>): seq<T>
  {
    if lines == [] then [] else lines[0] + terminator + JoinTerminated(lines[1..], terminator)
  }

  function TotalLength<T>(lines: seq<seq<T>>): nat
  {
    if lines == [] then 0 else |lines[0]| + TotalLength(lines[1..])
  }

  /** The joined text is as long as the lines plus one terminator per line. */
  lemma {:induction false} JoinTerminatedLength<T>(lines: seq<seq<T>>, terminator: seq<T>)
    ensures |JoinTerminated(lines, terminator)| == TotalLength(lines) + |lines| * |terminator|
    decreases |lines|
  {
    if lines != [] {
      JoinTerminatedLength(lines[1..], terminator);
    }
  }

  /** The joined text consists of the first line, the terminator, and the
      join of the remaining lines; adding a line appends it with its terminator. */
  lemma {:induction false} JoinTerminatedAppend<T>(lines: seq<seq<T>>, line: seq<T>, terminator: seq<T>)
    ensures JoinTerminated(lines + [line], terminator) == JoinTerminated(lines, terminator) + line + terminator
    decreases |lines|
  {
    if lines == [] {
      assert [line][1..] == [];
    } else {
      assert (lines + [line])[1..] == lines[1..] + [line];
      JoinTerminatedAppend(lines[1..], line, terminator);
    }
  }

  /** Normalising the separator-terminated lines gives the `\n`-terminated
      lines, provided no line contains the first element of the separator. */
  lemma {:induction false} ReplaceJoined<T>(lines: seq<seq<T>>, target: seq<T>, replacement: seq<T>)
    requires target != []
    requires forall i :: 0 <= i < |lines| ==> target[0] !in lines[i]
    ensures Replace(JoinTerminated(lines, target), target, replacement) == JoinTerminated(lines, replacement)
    decreases |lines|
  {
    if lines != [] {
      ReplaceAfterLine(lines[0], target, replacement, JoinTerminated(lines[1..], target));
      ReplaceJoined(lines[1..], target, replacement);
    }
  }
}
